=== FILE: README.md ===
# pvfs named-connection URIs in Pentaho Kettle, modelled in Dafny

This project models the layer of Pentaho Kettle that maps `pvfs://connection/path`
URIs onto the provider URIs behind named VFS connections, and back. For example,
`s3://bucket/path` sits behind `pvfs://connection/bucket/path`. The layer has these parts:

- `ConnectionUriParser` splits a URI into scheme, connection name and path. It tries
  three regular expressions in order, and each one searches for its leftmost match.
- The URI transformer strategy `PocVFSUriTransformer` has three implementations:
  - the default transformer over any VFS connection details;
  - `BaseVFSConnectionDetails`, which is its own transformer and delegates to the
    default one;
  - the legacy transformer, which converts children only and refuses the other direction.
- `ConnectionFileSystem` resolves a pvfs file name. It looks up the connection,
  computes the provider URL, resolves that URL natively and wraps the result in a
  `ConnectionFileObject`.
- `ConnectionFileObject` delegates to the native file. It turns native children
  back into pvfs files through its transformer, and it reports its original and
  AEL-safe URIs.
- The pure part of the file-open-save provider `VFSFileProvider` covers:
  - connection-root detection;
  - `hasBuckets`;
  - the tree of connection locations;
  - the memoised bucket folders of a connection root;
  - `sanitizeName`, `isSame` and `clearProviderCache`.
- The filesystem cache of an Apache VFS provider, with the option-equivalence policy
  that the copy-files job entry's cache scenarios demand.

The modules follow the Java classes:

| module | file | models |
|---|---|---|
| `Core` | core.dfy | `null` as `Option`, thrown exceptions as `Result`/`Failure`, variable spaces |
| `Text` | text.dfy | the character classes `\w`, `[^/]`, `.` and `[\w_-]`; greedy runs; `indexOf`; `replaceFirst` |
| `ConnectionUriParser` | connection_uri_parser.dfy | the parser |
| `NativeVfs` | native_vfs.dfy | the native file objects and the calls made on them, as data and function parameters |
| `UriTransformers` | uri_transformers.dfy | the default, base-details and legacy transformers |
| `ConnectionFileObject` | connection_file_object.dfy | constructors, `exists`, `refresh`, delegation, the two URI strings |
| `ConnectionFileSystem` | connection_file_system.dfy | `getUrl`, `getVFSUriTransformer`, `createConnectionFile`, `createFile`, `resolveFile` |
| `ConnectionFileChildren` | connection_file_children.dfy | `getChild(String)`, `getChildren` and the private `getChild(FileObject)` |
| `VfsFileProvider` | vfs_file_provider.dfy | the pure members of `VFSFileProvider` |
| `FileSystemCache` | file_system_cache.dfy | `addFileSystem`, `findFileSystem` and `getFileSystem` over value-compared options |

Four modules instantiate the unit tests of the parser, the transformers, the
provider and the cache scenarios on their literal inputs:
`ConnectionUriParserExamples`, `UriTransformerExamples`, `VfsFileProviderExamples`
and `FileSystemCacheExamples`. A fifth, `ConnectionFileSystemExamples`, runs one
connection end to end: its root resolves, and its child lies in the same connection.

Each regular expression is stated twice, and lemmas prove the two agree:
- as a declarative shape: a decomposition of the input that fits the pattern;
- as a greedy matcher: what `Matcher.find()` reports.

Java's backtracking is not modelled step by step. The lemmas show that no
backtracking can change a match of these particular patterns: a `\w` run is always
followed by `:`, a `[^/]` run by `/` or the end of the input.

## Model

Paths are relative to the repository root.

| member | source | states |
|---|---|---|
| ConnectionUriParser.MatchAt | core/src/main/java/org/pentaho/di/connections/utils/ConnectionUriParser.java:47-70 | A match the matcher reports at position `i` starts at `i`, and its groups are a decomposition of the input that fits the pattern |
| ConnectionUriParser.Find | core/src/main/java/org/pentaho/di/connections/utils/ConnectionUriParser.java:120-131 | `find()` reports the match at the leftmost position that has one, or nothing when no position has one |
| ConnectionUriParser.SchemeEnd | core/src/main/java/org/pentaho/di/connections/utils/ConnectionUriParser.java:70 | Where `(\w+)://` tried at `i` ends its scheme group: a non-empty word run starting at `i`, followed by `://` |
| ConnectionUriParser.NameEnd | core/src/main/java/org/pentaho/di/connections/utils/ConnectionUriParser.java:59 | Where `([^/]+)` tried at `k` ends: a non-empty run of characters other than `/` |
| ConnectionUriParser.PathEnd | core/src/main/java/org/pentaho/di/connections/utils/ConnectionUriParser.java:47 | Where `(/.+)` tried at `m` ends: a `/` at `m`, then at least one character and no line terminator |
| ConnectionUriParser.FindLeftmost | core/src/main/java/org/pentaho/di/connections/utils/ConnectionUriParser.java:120-131 | When the pattern matches at `i` and at no earlier position, `find()` reports exactly the match at `i` |
| ConnectionUriParser.Parse | core/src/main/java/org/pentaho/di/connections/utils/ConnectionUriParser.java:117-161 | Null input leaves all three getters null. A scheme is always a `\w+` word. A connection name comes only with a scheme, is non-empty and has no `/`. A path comes only with a name, starts with `/`, has at least two characters and holds no line terminator |
| ConnectionUriParser.SchemeRuleIsRegex | core/src/main/java/org/pentaho/di/connections/utils/ConnectionUriParser.java:70 | Wherever `(\w+)://` fits, the scheme rule matches there, with the whole word run as group 1 |
| ConnectionUriParser.NameRuleIsGreedyRegex | core/src/main/java/org/pentaho/di/connections/utils/ConnectionUriParser.java:59 | Wherever `(\w+)://([^/]+)/?` fits, the name rule matches there, with that scheme and a name at least as long as the fit's |
| ConnectionUriParser.PathRuleIsGreedyRegex | core/src/main/java/org/pentaho/di/connections/utils/ConnectionUriParser.java:47 | Wherever `(\w+)://([^/]+)(/.+)` fits, the path rule matches there: scheme and name as in the fit, and the path at least as long (greedy `.+`) |
| ConnectionUriParser.ParseSchemeIffSeparator | core/src/main/java/org/pentaho/di/connections/utils/ConnectionUriParser.java:117-137 | A scheme is reported if and only if `(\w+)://` occurs somewhere in the input |
| ConnectionUriParser.ParseNameIffNameShape | core/src/main/java/org/pentaho/di/connections/utils/ConnectionUriParser.java:120-130 | A connection name is reported if and only if `(\w+)://([^/]+)` occurs somewhere in the input |
| ConnectionUriParser.ParsePathIffPathShape | core/src/main/java/org/pentaho/di/connections/utils/ConnectionUriParser.java:120-125 | A path is reported if and only if rule 1 fits somewhere in the input |
| ConnectionUriParser.ParseTakesLeftmostPath | core/src/main/java/org/pentaho/di/connections/utils/ConnectionUriParser.java:120-125 | When rule 1 fits first at `i`, the parser reports that fit's scheme and name, and a path that is a slice of the input extending the fit's path |
| ConnectionUriParser.ParseTakesLeftmostName | core/src/main/java/org/pentaho/di/connections/utils/ConnectionUriParser.java:126-130 | When rule 1 fits nowhere, rule 2's leftmost fit gives the scheme and a name that extends the fit up to the next `/`. The path stays null |
| ConnectionUriParser.ParseTakesLeftmostScheme | core/src/main/java/org/pentaho/di/connections/utils/ConnectionUriParser.java:131-133 | When no name pattern fits, only the leftmost scheme is reported |
| ConnectionUriParser.ParseRoundTrip | core/src/main/java/org/pentaho/di/connections/utils/ConnectionUriParser.java:120-125 | Parsing `s://n` + `p` gives back `(s, n, p)`. This needs `s` a word, `n` non-empty without `/`, and `p` starting with `/`, with at least two characters and no line terminator |
| ConnectionUriParser.ParseNameOnly | core/src/main/java/org/pentaho/di/connections/utils/ConnectionUriParser.java:126-130 | `s://n` and `s://n/` give scheme and name with a null path (rule 2 is consulted only after rule 1 fails) |
| ConnectionUriParser.ParseSchemeOnly | core/src/main/java/org/pentaho/di/connections/utils/ConnectionUriParser.java:131-133 | `s://` and `s:///` give the scheme alone |
| ConnectionUriParser.ParseWithoutSeparator | core/src/main/java/org/pentaho/di/connections/utils/ConnectionUriParser.java:117-137 | Input without `://` leaves all three fields null |
| ConnectionUriParser.ParseNameAndRest | core/src/main/java/org/pentaho/di/connections/utils/ConnectionUriParser.java:120-130 | `s://n/` + `rest` gives `(s, n, "/" + rest)`, or `(s, n, null)` when `rest` is empty. The URI can be rebuilt from the result |
| ConnectionUriParser.ParseNameBeforeRest | core/src/main/java/org/pentaho/di/connections/utils/ConnectionUriParser.java:120-125 | Any `s://n/` + `rest`, with `rest` not starting with a line terminator, parses to scheme `s` and name `n` |
| ConnectionUriParserExamples.ParserExampleShortName | core/src/test/java/org/pentaho/di/connections/utils/ConnectionUriParserTest.java:26-36 | `xyz://abc` and `xyz://abc/` give scheme `xyz` and name `abc` |
| ConnectionUriParserExamples.ParserExampleSchemeOnly | core/src/main/java/org/pentaho/di/connections/utils/ConnectionUriParser.java:131-133 | `xyz://` and `xyz:///` give the scheme `xyz` only |
| ConnectionUriParserExamples.ParserExampleWithPath | core/src/test/java/org/pentaho/di/connections/utils/ConnectionUriParserTest.java:38-42 | `xyz://abc/someDir/somePath/someFile.txt` gives `xyz`, `abc` and the path |
| ConnectionUriParserExamples.ParserExampleDashedName | core/src/test/java/org/pentaho/di/connections/utils/ConnectionUriParserTest.java:44-54 | A name with `-`, `_` and digits is read whole, with or without the trailing `/` |
| ConnectionUriParserExamples.ParserExampleSalesData | core/src/test/java/org/pentaho/di/connections/utils/ConnectionUriParserTest.java:56-60 | The sales-data URI gives `pvfs`, `some-ConnectionName_123` and its path |
| ConnectionUriParserExamples.ParserExampleSpecialCharacters | core/src/test/java/org/pentaho/di/connections/utils/ConnectionUriParserTest.java:61-66 | A name with spaces and punctuation followed by a path is returned verbatim, up to the first `/` |
| ConnectionUriParserExamples.ParserExampleSpecialName | core/src/test/java/org/pentaho/di/connections/utils/ConnectionUriParserTest.java:69-74 | The same name with no path after it is returned verbatim |
| UriTransformers.DomainRootIsFullMatch | core/src/main/java/org/pentaho/di/connections/vfs/tranform/PocDefaultVFSUriTransformer.java:30 | The root test holds exactly when the whole URL is a `\w+` word followed by `://` |
| UriTransformers.IsDomainRoot | core/src/main/java/org/pentaho/di/connections/vfs/tranform/PocDefaultVFSUriTransformer.java:30 | A domain root has at least four characters and its only `://` is at its end |
| UriTransformers.DomainRootSeparatorAtEnd | core/src/main/java/org/pentaho/di/connections/vfs/tranform/PocDefaultVFSUriTransformer.java:30 | A `\w+` word followed by `://` holds no other `://` |
| UriTransformers.NonEmptyDomainIsNeverRoot | core/src/main/java/org/pentaho/di/connections/vfs/tranform/PocDefaultVFSUriTransformer.java:24-32 | With a non-empty domain the URL is never a bare root, so the name is never appended |
| UriTransformers.EmptyDomainRoot | core/src/main/java/org/pentaho/di/connections/vfs/tranform/PocDefaultVFSUriTransformer.java:24-30 | With an empty domain the URL is a root if and only if the type is a word and the path is `/` |
| UriTransformers.DefaultToProviderUri | core/src/main/java/org/pentaho/di/connections/vfs/tranform/PocDefaultVFSUriTransformer.java:21-35 | Null details or a null domain raise a NullPointerException. The synthetic details raise NotImplemented at `getType`. Success comes exactly for real details with a domain; the URL then starts with `type:/`, gets the name appended iff it is a bare root and the connection has buckets, and is unchanged otherwise |
| UriTransformers.HostOf | core/src/main/java/org/pentaho/di/connections/vfs/tranform/PocDefaultVFSUriTransformer.java:50-62 | The host is the URL file name's host name, or else the URL's host. A FileSystemException becomes a RuntimeException |
| UriTransformers.DefaultToVfsUri | core/src/main/java/org/pentaho/di/connections/vfs/tranform/PocDefaultVFSUriTransformer.java:38-63 | The result is `pvfs://` + name + `/` + [host] + native path. The host appears exactly when the domain is null or empty. Every failure is a null-details failure or the wrapped host failure, never a partial URI |
| UriTransformers.ToProviderUri | core/src/main/java/org/pentaho/di/connections/vfs/tranform/PocLegacyGetChildVFSUriTransformer.java:27-29 | The legacy strategy fails with NotImplemented whatever the input. The others answer as the default transformer over their details |
| UriTransformers.ToVfsUri | core/src/main/java/org/pentaho/di/connections/vfs/tranform/PocLegacyGetChildVFSUriTransformer.java:42-44 | Every strategy converts a native file as the default transformer over the details it delegates to |
| UriTransformers.LegacyAgreesWithDefault | core/src/main/java/org/pentaho/di/connections/vfs/tranform/PocLegacyGetChildVFSUriTransformer.java:42-81 | The legacy `toVfsUri` equals the default one over any details with the same name and domain, and never reaches a throwing accessor |
| UriTransformers.DetailsTransformerAgreesWithDefault | core/src/main/java/org/pentaho/di/connections/vfs/BaseVFSConnectionDetails.java:20-34 | Base details as their own transformer equal a default transformer wrapped around them, in both directions |
| UriTransformers.VfsUriParsesBack | core/src/main/java/org/pentaho/di/connections/vfs/tranform/PocDefaultVFSUriTransformer.java:42-46 | For a non-empty name without `/` and a tail after `pvfs://name/` with no line terminator, the parser reads `pvfs` and that name back, and the URI is `pvfs://name` + the parsed path |
| UriTransformers.VfsUriRest | core/src/main/java/org/pentaho/di/connections/vfs/tranform/PocDefaultVFSUriTransformer.java:42-46 | Every `toVfsUri` result is `pvfs://` + the connection name + `/` + the tail: the native path, after the host when the domain is empty |
| UriTransformers.VfsUriNameParsesBack | core/src/main/java/org/pentaho/di/connections/vfs/tranform/PocDefaultVFSUriTransformer.java:42-46 | For a non-empty name without `/`, the parser reads `pvfs` and that name back whenever the tail does not start with a line terminator |
| UriTransformers.VfsUriRebuildNeedsPlainTail | core/src/main/java/org/pentaho/di/connections/vfs/tranform/PocDefaultVFSUriTransformer.java:42-46 | When the tail holds a line terminator, the URI is not `pvfs://name` + the parsed path: the parser cuts the path at the first line terminator |
| UriTransformers.ProviderUriWithDomainParses | core/src/main/java/org/pentaho/di/connections/vfs/tranform/PocDefaultVFSUriTransformer.java:24-28 | With a domain, the provider URI is `type://domain/path`, and the parser splits it back into type, domain and path |
| UriTransformers.BucketRoundTrip | core/src/main/java/org/pentaho/di/connections/vfs/tranform/PocVFSUriTransformer.java:10-13 | With an empty domain, `/bucket/rest` becomes `type://bucket/rest`, which parses into bucket and rest. A native file with that host and path converts back to `pvfs://name/bucket/rest` |
| UriTransformerExamples.DocumentedExample | core/src/main/java/org/pentaho/di/connections/vfs/tranform/PocVFSUriTransformer.java:10-13 | The interface's documented s3 example holds in both directions |
| UriTransformerExamples.BucketRootExample | core/src/main/java/org/pentaho/di/connections/vfs/tranform/PocDefaultVFSUriTransformer.java:29-32 | The root path `/` of a bucket connection gives `s3://someConnectionName`. Without buckets it stays `s3://` |
| ConnectionFileObject.NewLegacy | core/src/main/java/org/pentaho/di/connections/vfs/provider/ConnectionFileObject.java:67-74 | The deprecated constructor keeps name, native file and domain, and installs a legacy transformer over the object's own connection and domain |
| ConnectionFileObject.NewWith | core/src/main/java/org/pentaho/di/connections/vfs/provider/ConnectionFileObject.java:76-83 | The five-argument constructor keeps every argument, the given transformer included |
| ConnectionFileObject.LegacyFileConvertsLikeDefault | core/src/main/java/org/pentaho/di/connections/vfs/provider/ConnectionFileObject.java:67-74 | A legacy-built file converts children like a default transformer over details named after its connection with its domain |
| ConnectionFileObject.Exists | core/src/main/java/org/pentaho/di/connections/vfs/provider/ConnectionFileObject.java:134-139 | Without a native file `exists` is false; otherwise it is the native answer. True implies a native file |
| ConnectionFileObject.Refresh | core/src/main/java/org/pentaho/di/connections/vfs/provider/ConnectionFileObject.java:240-244 | Without a native file `refresh` does nothing; otherwise it is the native refresh |
| ConnectionFileObject.Delegate | core/src/main/java/org/pentaho/di/connections/vfs/provider/ConnectionFileObject.java:102-132 | A pass-through operation answers what the native file answers, and fails with a NullPointerException without one |
| ConnectionFileObject.GetOriginalUriString | core/src/main/java/org/pentaho/di/connections/vfs/provider/ConnectionFileObject.java:250-253 | The original URI starts with `pvfs://` + the object's connection |
| ConnectionFileObject.OriginalUriIgnoresNativeFile | core/src/main/java/org/pentaho/di/connections/vfs/provider/ConnectionFileObject.java:250-253 | The original URI depends on the name alone, not on the native file, domain or transformer |
| ConnectionFileObject.OriginalUriParsesBack | core/src/main/java/org/pentaho/di/connections/vfs/provider/ConnectionFileObject.java:250-253 | For a non-empty connection without `/` and a path of at least two characters that starts with `/` and holds no line terminator, the original URI parses back into `pvfs`, the connection and the path |
| ConnectionFileObject.OriginalUriOfRootParses | core/src/main/java/org/pentaho/di/connections/vfs/provider/ConnectionFileObject.java:250-253 | The original URI of a connection root, path `/`, parses back into `pvfs` and the connection with no path |
| ConnectionFileObject.GetAelSafeUriString | core/src/main/java/org/pentaho/di/connections/vfs/provider/ConnectionFileObject.java:255-258 | Without a native file it fails with a NullPointerException; with one it always succeeds |
| ConnectionFileObject.AelSafeUriWithoutS3 | core/src/main/java/org/pentaho/di/connections/vfs/provider/ConnectionFileObject.java:257 | A public URI without `s3://` comes through unchanged |
| ConnectionFileObject.AelSafeUriRewritesFirstS3 | core/src/main/java/org/pentaho/di/connections/vfs/provider/ConnectionFileObject.java:257 | Only the first `s3://` becomes `s3a://`; later occurrences are left alone |
| ConnectionFileSystem.Lookup | core/src/main/java/org/pentaho/di/connections/vfs/provider/ConnectionFileSystem.java:75-76 | The details are found exactly for a known connection, and are that connection's |
| ConnectionFileSystem.GetVfsUriTransformer | core/src/main/java/org/pentaho/di/connections/vfs/provider/ConnectionFileSystem.java:124-128 | Base details are their own transformer. Other details, and null, get a default transformer. Never the legacy one |
| ConnectionFileSystem.GetUrl | core/src/main/java/org/pentaho/di/connections/vfs/provider/ConnectionFileSystem.java:66-69 | Non-VFS details fail the cast. Otherwise the URL is the selected transformer's provider URI of the name's path |
| ConnectionFileSystem.GetUrlIsDefaultProviderUri | core/src/main/java/org/pentaho/di/connections/vfs/provider/ConnectionFileSystem.java:66-69 | Whichever strategy is selected, `getUrl` is the default transformer's provider URI. An unknown connection fails with a NullPointerException |
| ConnectionFileSystem.GetUrlSucceedsIffDomain | core/src/main/java/org/pentaho/di/connections/vfs/provider/ConnectionFileSystem.java:66-69 | `getUrl` yields a URL if and only if the connection exists and has a domain |
| ConnectionFileSystem.CreateConnectionFile | core/src/main/java/org/pentaho/di/connections/vfs/provider/ConnectionFileSystem.java:108-114 | The file keeps name, native file and domain. Base details become its transformer; anything else gets the legacy constructor |
| ConnectionFileSystem.WithSpace | core/src/main/java/org/pentaho/di/connections/vfs/provider/ConnectionFileSystem.java:81-83 | `setSpace` changes only the space, and only of present details |
| ConnectionFileSystem.CreateFile | core/src/main/java/org/pentaho/di/connections/vfs/provider/ConnectionFileSystem.java:72-96 | An unknown connection gives a NullPointerException, and non-VFS details a ClassCastException. For VFS details, a null domain gives a NullPointerException; otherwise a failing native lookup of `getUrl` (with `connection` set to the connection name) passes through, and a successful one is wrapped as `createConnectionFile` does with the connection's domain. Every success is of that form |
| ConnectionFileSystem.ResolveFile | core/src/main/java/org/pentaho/di/connections/vfs/provider/ConnectionFileSystem.java:134-141 | Succeeds exactly when `createFile` does, with its result. Every failure becomes a `vfs.provider/resolve-file.error` FileSystemException carrying the cause |
| ConnectionFileSystem.ResolveFileSucceedsIff | core/src/main/java/org/pentaho/di/connections/vfs/provider/ConnectionFileSystem.java:72-96 | A pvfs file resolves iff its connection is known, is a VFS connection with a domain, and the native side resolves its URL; the file then has the given name, the connection's domain and that native file |
| ConnectionFileSystem.ResolvedFileRefreshesNative | core/src/main/java/org/pentaho/di/connections/vfs/provider/ConnectionFileObject.java:240-244 | `refresh` of a resolved pvfs file is the native refresh of the handle `createFile` resolved |
| ConnectionFileSystemExamples.RootResolves | core/src/main/java/org/pentaho/di/connections/vfs/provider/ConnectionFileSystem.java:72-96 | The root of a known VFS connection with a domain resolves when the native side resolves, and its `refresh` is the native one |
| ConnectionFileSystemExamples.RootResolvesAnyPath | core/src/main/java/org/pentaho/di/connections/vfs/provider/ConnectionFileSystem.java:72-96 | Every file name of that connection resolves |
| ConnectionFileSystemExamples.RootChildStaysInConnection | core/src/main/java/org/pentaho/di/connections/vfs/provider/ConnectionFileObject.java:151-158 | The root lists exactly its one native child, converted, and that child lies in the root's connection |
| ConnectionFileSystem.UnknownConnectionFailsToResolve | core/src/main/java/org/pentaho/di/connections/vfs/provider/ConnectionFileSystem.java:134-141 | An unknown connection fails to resolve, with the NullPointerException as the cause |
| ConnectionFileSystem.ResolvedFileExistsIsNative | core/src/main/java/org/pentaho/di/connections/vfs/provider/ConnectionFileSystem.java:92-95 | A resolved file always holds a native file, so its `exists` is the native answer |
| ConnectionFileChildren.ConvertChild | core/src/main/java/org/pentaho/di/connections/vfs/provider/ConnectionFileObject.java:167-170 | A null child fails with a NullPointerException. A failing transformer or a failing `resolveName` passes its error through; otherwise the child is the file `resolveFile` gives for the name read from the transformer's pvfs URI |
| ConnectionFileChildren.GetChild | core/src/main/java/org/pentaho/di/connections/vfs/provider/ConnectionFileObject.java:141-143 | Without a native file it fails with a NullPointerException. Otherwise it converts the native child of that name, or passes on the native failure |
| ConnectionFileChildren.FirstFailing | core/src/main/java/org/pentaho/di/connections/vfs/provider/ConnectionFileObject.java:154-156 | The first native child whose conversion fails: every earlier one converts |
| ConnectionFileChildren.ConvertAll | core/src/main/java/org/pentaho/di/connections/vfs/provider/ConnectionFileObject.java:151-158 | Succeeds iff every child converts. The result is index-aligned with the native children. Otherwise it fails with the first failing child's error |
| ConnectionFileChildren.GetChildren | core/src/main/java/org/pentaho/di/connections/vfs/provider/ConnectionFileObject.java:151-158 | The loop computes the reference conversion: as many children as native ones, child `i` being native child `i` converted. Without a native file it fails with a NullPointerException |
| ConnectionFileChildren.ChildrenOf | core/src/main/java/org/pentaho/di/connections/vfs/provider/ConnectionFileObject.java:151-158 | No native file fails with a NullPointerException, and a failed native listing passes its error through. Otherwise the call succeeds iff every native child converts, with one child per native child |
| ConnectionFileChildren.FailureAborts | core/src/main/java/org/pentaho/di/connections/vfs/provider/ConnectionFileObject.java:154-156 | When every native child before `i` converts and child `i` does not, the listing fails with child `i`'s error |
| ConnectionFileChildren.ConvertAllOfConverted | core/src/main/java/org/pentaho/di/connections/vfs/provider/ConnectionFileObject.java:151-158 | Children that each convert from the native child at the same index are exactly what the full conversion returns |
| ConnectionFileChildren.ChildStaysInConnection | core/src/main/java/org/pentaho/di/connections/vfs/provider/ConnectionFileObject.java:167-170 | A converted child of a resolved pvfs file lies in the parent's connection |
| ConnectionFileChildren.ChildrenStayInConnection | core/src/main/java/org/pentaho/di/connections/vfs/provider/ConnectionFileObject.java:151-158 | Every child `getChildren` returns lies in the parent's connection |
| VfsFileProvider.RootPathSplits | plugins/file-open-save-new/core/src/main/java/org/pentaho/di/plugins/fileopensave/providers/vfs/VFSFileProvider.java:80-92 | A path the matcher accepts has the regex's shape: scheme, `://`, a `[\w_-]+` name, at most one `/` |
| VfsFileProvider.RootShapeMatches | plugins/file-open-save-new/core/src/main/java/org/pentaho/di/plugins/fileopensave/providers/vfs/VFSFileProvider.java:80-92 | Every path of that shape is accepted |
| VfsFileProvider.ConnectionRootIsRegex | plugins/file-open-save-new/core/src/main/java/org/pentaho/di/plugins/fileopensave/providers/vfs/VFSFileProvider.java:299-302 | The matcher accepts a path if and only if `[\w]+://[\w_-]+[/]?` fully matches it |
| VfsFileProvider.PastTheNameIsNotRoot | plugins/file-open-save-new/core/src/main/java/org/pentaho/di/plugins/fileopensave/providers/vfs/VFSFileProvider.java:91-92 | A path that continues past `scheme://name/` is not a root |
| VfsFileProvider.ConnectionRootParses | plugins/file-open-save-new/core/src/main/java/org/pentaho/di/plugins/fileopensave/providers/vfs/VFSFileProvider.java:299-302 | A connection root parses into its scheme and name with no path |
| VfsFileProvider.IsConnectionRoot | plugins/file-open-save-new/core/src/main/java/org/pentaho/di/plugins/fileopensave/providers/vfs/VFSFileProvider.java:299-302 | A file is a connection root iff its path is `\w+://` + a `[\w_-]+` name + an optional `/` |
| VfsFileProvider.HasBuckets | plugins/file-open-save-new/core/src/main/java/org/pentaho/di/plugins/fileopensave/providers/vfs/VFSFileProvider.java:268-269 | True exactly for VFS details that have buckets: false for details that are not VFS, true for VFS details with buckets |
| VfsFileProvider.GetKey | plugins/file-open-save-new/core/src/main/java/org/pentaho/di/plugins/fileopensave/providers/vfs/VFSFileProvider.java:259-261 | The key depends on the path alone: any two files with the same path share it |
| VfsFileProviderExamples.NotRootWithoutPath | plugins/file-open-save-new/core/src/test/java/org/pentaho/di/plugins/fileopensave/providers/vfs/VFSFileProviderTest.java:40-44 | A null file, a null path and an empty path are not roots |
| VfsFileProviderExamples.NotRootBeforeTheSeparator | plugins/file-open-save-new/core/src/test/java/org/pentaho/di/plugins/fileopensave/providers/vfs/VFSFileProviderTest.java:46-50 | ` `, `pvfs` and `pvfs:` are not roots |
| VfsFileProviderExamples.NotRootBeforeTheName | plugins/file-open-save-new/core/src/test/java/org/pentaho/di/plugins/fileopensave/providers/vfs/VFSFileProviderTest.java:52-56 | `pvfs:/`, `pvfs://` and `pvfs:///` are not roots |
| VfsFileProviderExamples.PlainRootsOfTheTest | plugins/file-open-save-new/core/src/test/java/org/pentaho/di/plugins/fileopensave/providers/vfs/VFSFileProviderTest.java:59-71 | `pvfs://someConnection` and `pvfs://some_Connection`, with and without `/`, are roots |
| VfsFileProviderExamples.RootsOfTheTest | plugins/file-open-save-new/core/src/test/java/org/pentaho/di/plugins/fileopensave/providers/vfs/VFSFileProviderTest.java:63-77 | Dashed names, and a name starting with digits, are roots |
| VfsFileProviderExamples.NumberedRootsOfTheTest | plugins/file-open-save-new/core/src/test/java/org/pentaho/di/plugins/fileopensave/providers/vfs/VFSFileProviderTest.java:65-77 | Names with digits are roots |
| VfsFileProviderExamples.NotRootPastTheName | plugins/file-open-save-new/core/src/test/java/org/pentaho/di/plugins/fileopensave/providers/vfs/VFSFileProviderTest.java:79-86 | Folder and file paths below the connection are not roots |
| VfsFileProviderExamples.HasBucketsOfTheTest | plugins/file-open-save-new/core/src/test/java/org/pentaho/di/plugins/fileopensave/providers/vfs/VFSFileProviderTest.java:89-106 | Null and non-VFS details have no buckets. VFS details have buckets exactly as they say |
| VfsFileProvider.LocationOf | plugins/file-open-save-new/core/src/main/java/org/pentaho/di/plugins/fileopensave/providers/vfs/VFSFileProvider.java:169-181 | A location has path `pvfs://` + name, the connection's name and domain, and can add children iff the connection has buckets. It is marked as having buckets iff the type starts with `s3` or `snw` |
| VfsFileProvider.Locations | plugins/file-open-save-new/core/src/main/java/org/pentaho/di/plugins/fileopensave/providers/vfs/VFSFileProvider.java:164-186 | At most one location per connection; with no filter, exactly one per connection, in order |
| VfsFileProvider.LocationsAreTheSelected | plugins/file-open-save-new/core/src/main/java/org/pentaho/di/plugins/fileopensave/providers/vfs/VFSFileProvider.java:182-184 | A location is in the tree iff it belongs to a connection whose type passes the filter (an empty filter passes all) |
| VfsFileProvider.GetTree | plugins/file-open-save-new/core/src/main/java/org/pentaho/di/plugins/fileopensave/providers/vfs/VFSFileProvider.java:160-189 | The call fails, with a ClassCastException, iff some connection is not VFS, even one the filter would drop. Otherwise the tree is the selected connections' locations in order |
| VfsFileProvider.FolderOf | plugins/file-open-save-new/core/src/main/java/org/pentaho/di/plugins/fileopensave/providers/vfs/VFSFileProvider.java:237-249 | A bucket folder's path is the root path + `/` + bucket name, its parent `scheme://`, and it carries the connection's name and domain |
| VfsFileProvider.FoldersOf | plugins/file-open-save-new/core/src/main/java/org/pentaho/di/plugins/fileopensave/providers/vfs/VFSFileProvider.java:237-249 | One folder per bucket, in the provider's order |
| VfsFileProvider.GetRoot | plugins/file-open-save-new/core/src/main/java/org/pentaho/di/plugins/fileopensave/providers/vfs/VFSFileProvider.java:205-252 | A known key answers from the memo. Otherwise: no bucket connection gives null; a failed listing gives a FileException whose message starts with the locations error; a null or empty listing gives FileNotFoundException for the path and provider; any other listing gives one folder per bucket, stored under the key. The memo changes only when folders are returned, and earlier entries are kept |
| VfsFileProvider.RootDetails | plugins/file-open-save-new/core/src/main/java/org/pentaho/di/plugins/fileopensave/providers/vfs/VFSFileProvider.java:210-211 | The details are found iff the file names a connection that is in the directory, and they are that connection's |
| VfsFileProvider.GetRootIsMemoised | plugins/file-open-save-new/core/src/main/java/org/pentaho/di/plugins/fileopensave/providers/vfs/VFSFileProvider.java:205-251 | After a listing, any call for the same path answers the same folders and leaves the memo unchanged, whatever the connections or provider then say |
| VfsFileProvider.ClearProviderCache | plugins/file-open-save-new/core/src/main/java/org/pentaho/di/plugins/fileopensave/providers/vfs/VFSFileProvider.java:652-654 | The memo is empty afterwards |
| VfsFileProvider.ClearedCacheRecomputes | plugins/file-open-save-new/core/src/main/java/org/pentaho/di/plugins/fileopensave/providers/vfs/VFSFileProvider.java:652-654 | With the key in the memo, `getRoot` answers the stored folders; after clearing, it answers what the connections and provider say now, and stores a fresh listing |
| VfsFileProvider.SanitizeName | plugins/file-open-save-new/core/src/main/java/org/pentaho/di/plugins/fileopensave/providers/vfs/VFSFileProvider.java:637-642 | A path starting with `pvfs://` comes back unchanged; any other path goes to the provider's own `sanitizeName` |
| VfsFileProvider.SanitizeNameFixesPvfs | plugins/file-open-save-new/core/src/main/java/org/pentaho/di/plugins/fileopensave/providers/vfs/VFSFileProvider.java:637-640 | A pvfs path comes back unchanged, whatever the connection provider would do with it |
| VfsFileProvider.SanitizeNameIsIdempotent | plugins/file-open-save-new/core/src/main/java/org/pentaho/di/plugins/fileopensave/providers/vfs/VFSFileProvider.java:637-642 | Sanitizing is idempotent when the connection provider's sanitizer is idempotent on the non-pvfs names it returns |
| VfsFileProvider.IsSame | plugins/file-open-save-new/core/src/main/java/org/pentaho/di/plugins/fileopensave/providers/vfs/VFSFileProvider.java:589-597 | True iff both files are VFS files with equal, non-null connections. False if either is not a VFS file. A null first connection raises a NullPointerException |
| VfsFileProvider.IsSameIsEquivalence | plugins/file-open-save-new/core/src/main/java/org/pentaho/di/plugins/fileopensave/providers/vfs/VFSFileProvider.java:589-597 | On VFS files with connections, `isSame` is reflexive, symmetric and transitive |
| FileSystemCache.GetVariables | engine/src/test/java/org/pentaho/di/job/entries/copyfiles/PocVFSFileSystemHashcodeVariablesJobEntryCopyFilesTest.java:457 | A job entry's `getVariables()` is a plain `Variables` holding the same variables; a `Variables` is its own |
| FileSystemCache.CanonicalIffSameValue | engine/src/test/java/org/pentaho/di/job/entries/copyfiles/PocVFSFileSystemHashcodeVariablesJobEntryCopyFilesTest.java:156-160 | Two option values have the same canonical form iff they are equal scalars or variable spaces holding the same variables |
| FileSystemCache.CanonicalOptions | engine/src/test/java/org/pentaho/di/job/entries/copyfiles/PocVFSFileSystemHashcodeVariablesJobEntryCopyFilesTest.java:550-561 | The canonical options have the same names, each value in canonical form |
| FileSystemCache.EquivalentIffSameValues | engine/src/test/java/org/pentaho/di/job/entries/copyfiles/PocVFSFileSystemHashcodeVariablesJobEntryCopyFilesTest.java:391-407 | Two option sets compare equal iff they have the same names with interchangeable values |
| FileSystemCache.EquivalentIsEquivalence | engine/src/test/java/org/pentaho/di/job/entries/copyfiles/PocVFSFileSystemHashcodeVariablesJobEntryCopyFilesTest.java:391-407 | Comparing option sets is reflexive, symmetric and transitive |
| FileSystemCache.GetBoolean | engine/src/test/java/org/pentaho/di/job/entries/copyfiles/PocVFSFileSystemHashcodeVariablesJobEntryCopyFilesTest.java:615-618 | An absent parameter reads as null. A value of another type fails the cast with a ClassCastException. Otherwise the read answers the stored value, a boolean |
| FileSystemCache.GetString | engine/src/test/java/org/pentaho/di/job/entries/copyfiles/PocVFSFileSystemHashcodeVariablesJobEntryCopyFilesTest.java:611-614 | An absent parameter reads as null. A value of another type fails the cast with a ClassCastException. Otherwise the read answers the stored value, a string |
| FileSystemCache.GetInteger | engine/src/test/java/org/pentaho/di/job/entries/copyfiles/PocVFSFileSystemHashcodeVariablesJobEntryCopyFilesTest.java:620-623 | An absent parameter reads as null. A value of another type fails the cast with a ClassCastException. Otherwise the read answers the stored value, an integer |
| FileSystemCache.GetSpaceVariable | engine/src/test/java/org/pentaho/di/job/entries/copyfiles/PocVFSFileSystemHashcodeVariablesJobEntryCopyFilesTest.java:381-386 | A missing parameter is a null reference and fails with a NullPointerException; a parameter that is not a variable space fails the cast. Otherwise the read answers the space's value of the variable, or null when the space does not define it |
| FileSystemCache.EquivalentReadsAgree | engine/src/test/java/org/pentaho/di/job/entries/copyfiles/PocVFSFileSystemHashcodeVariablesJobEntryCopyFilesTest.java:353-389 | Equivalent option sets answer every typed read and every variable read alike |
| FileSystemCache.AddFileSystem | engine/src/test/java/org/pentaho/di/job/entries/copyfiles/PocVFSFileSystemHashcodeVariablesJobEntryCopyFilesTest.java:642-645 | Filing adds exactly the key of the URI and the filesystem's options, that key then maps to `fs`, and every other entry is left alone |
| FileSystemCache.FindFileSystem | engine/src/test/java/org/pentaho/di/job/entries/copyfiles/PocVFSFileSystemHashcodeVariablesJobEntryCopyFilesTest.java:637-640 | A filesystem is found iff some key has that URI and options equivalent to the ones asked for, and it is the filesystem filed under that key |
| FileSystemCache.FindAfterAdd | engine/src/test/java/org/pentaho/di/job/entries/copyfiles/PocVFSFileSystemHashcodeVariablesJobEntryCopyFilesTest.java:421-536 | After filing `fs`, a lookup finds `fs` iff it asks for the same URI with options value-equal to those of `fs`. Any other lookup answers as before |
| FileSystemCache.GetFileSystem | engine/src/test/java/org/pentaho/di/job/entries/copyfiles/PocVFSFileSystemHashcodeVariablesJobEntryCopyFilesTest.java:125-133 | A hit returns the cached filesystem and leaves the cache unchanged. A miss creates one and adds exactly its key. Either way the result is then found |
| FileSystemCache.RepeatedRequestDoesNotGrow | engine/src/test/java/org/pentaho/di/job/entries/copyfiles/PocVFSFileSystemHashcodeVariablesJobEntryCopyFilesTest.java:193 | A second request with value-equal options returns the first filesystem and the cache stays as it is |
| FileSystemCache.LibraryIsFinerForVariables | engine/src/test/java/org/pentaho/di/job/entries/copyfiles/PocVFSFileSystemHashcodeVariablesJobEntryCopyFilesTest.java:66-69 | For options whose spaces are plain `Variables`, compared by `Object.hashCode`, library-equal options are value-equal when one object holds one set of variables |
| FileSystemCache.LibraryMissesDistinctContainers | engine/src/test/java/org/pentaho/di/job/entries/copyfiles/PocVFSFileSystemHashcodeVariablesJobEntryCopyFilesTest.java:403-404 | A plain `Variables` and a distinct container with the same variables are value-equal, but their hash codes differ in both orders |
| FileSystemCache.LibraryConfusesSameNamedEntries | engine/src/test/java/org/pentaho/di/job/entries/copyfiles/PocVFSFileSystemHashcodeVariablesJobEntryCopyFilesTest.java:305-311 | Two job entries with the same name hash alike, as `JobEntryBase#hashCode` uses the name alone, and they are value-equal only when they hold the same variables |
| FileSystemCacheExamples.TestOptions | engine/src/test/java/org/pentaho/di/job/entries/copyfiles/PocVFSFileSystemHashcodeVariablesJobEntryCopyFilesTest.java:550-561 | The test options hold `key1` = false, `key2` = `test_string_value`, `key3` = 349 and the space under `key4_variableObj`, and nothing else |
| FileSystemCacheExamples.TestOptionsAgree | engine/src/test/java/org/pentaho/di/job/entries/copyfiles/PocVFSFileSystemHashcodeVariablesJobEntryCopyFilesTest.java:550-561 | Test options around two spaces with the same variables are value-equal |
| FileSystemCacheExamples.Scenario1aJobEntryFindsVariables | engine/src/test/java/org/pentaho/di/job/entries/copyfiles/PocVFSFileSystemHashcodeVariablesJobEntryCopyFilesTest.java:421-447 | A job entry's options find the filesystem cached for a plain `Variables` with the same access key |
| FileSystemCacheExamples.Scenario1bJobEntryFindsItsVariables | engine/src/test/java/org/pentaho/di/job/entries/copyfiles/PocVFSFileSystemHashcodeVariablesJobEntryCopyFilesTest.java:449-474 | A job entry's options find the filesystem cached for its own `getVariables()` |
| FileSystemCacheExamples.Scenario2VariablesFindVariables | engine/src/test/java/org/pentaho/di/job/entries/copyfiles/PocVFSFileSystemHashcodeVariablesJobEntryCopyFilesTest.java:478-506 | Two distinct `Variables` with the same values select the same filesystem |
| FileSystemCacheExamples.Scenario3DifferentValueMisses | engine/src/test/java/org/pentaho/di/job/entries/copyfiles/PocVFSFileSystemHashcodeVariablesJobEntryCopyFilesTest.java:508-536 | Same-named job entries with different access-key values miss, and the lookup answers null |
| FileSystemCacheExamples.Scenario3LibraryTakesTheOtherEntry | engine/src/test/java/org/pentaho/di/job/entries/copyfiles/PocVFSFileSystemHashcodeVariablesJobEntryCopyFilesTest.java:530-534 | Under the library's comparison the two same-named job entries' options compare equal, so the lookup would return the filesystem built with the other access key, while they are not value-equal |
| FileSystemCacheExamples.JobEntryAndVariablesReadAlike | engine/src/test/java/org/pentaho/di/job/entries/copyfiles/PocVFSFileSystemHashcodeVariablesJobEntryCopyFilesTest.java:353-407 | Options around a job entry and around a `Variables` with the same key compare equal. Reads of `key1` to `key3` agree, both have `key4_variableObj`, and both read the access key |
| Text.RunEnd | core/src/main/java/org/pentaho/di/connections/utils/ConnectionUriParser.java:47 | A greedy run stops at the first character outside its class, or at the end |
| Text.IndexOf | core/src/main/java/org/pentaho/di/connections/vfs/provider/ConnectionFileObject.java:257 | The leftmost occurrence at or after `from`, or none when there is none |
| Text.ReplaceFirstSplits | core/src/main/java/org/pentaho/di/connections/vfs/provider/ConnectionFileObject.java:257 | `replaceFirst` swaps exactly the first occurrence and keeps the rest |

## Left out

- Pass-through operations of `ConnectionFileObject`: their outputs are the native file's. The native handle's contents, streams, random access, file operations, types and attributes are not modelled. `Delegate` states that these operations pass through.
- `KettleVFS`, the connection manager and Apache VFS internals are parameters:
  - native resolution and the native handle's host, path, children, `exists` and `refresh` are the `Driver` functions;
  - the manager's `resolveName` is a function of the file system;
  - the connection directory is a map.
- The layout of `ConnectionFileName`: its URI is taken to be `pvfs://` + connection + path. That class is not part of this model.
- `ConnectionFileSystem.CreateFile`: the URL is never null, because no transformer returns null. The source's null-URL branch (lines 89-93) is therefore dead and is not modelled as a separate path.
- `ConnectionFileSystem.CreateFile`: `varSpace.setVariable(CONNECTION, …)` mutates the variable space shared through the file-system options. The model passes the updated variables to the native lookup but does not carry the mutation to later calls. The options are assumed to carry a variable space; the null-space case is not modelled.
- `ConnectionFileSystem.CreateFile`: a native object that is not an `AbstractFileObject` would fail the cast at line 92. The driver is assumed to return such objects.
- `UriTransformers.VfsUriParsesBack`: the rebuild is promised only when the tail after `pvfs://name/` holds no line terminator. The parser's path group `(/.+)` stops at the first line terminator, so a tail such as `a\nb` parses to the path `//a`; `VfsUriRebuildNeedsPlainTail` proves that the rebuild then fails. Reading back the scheme and the name needs only a tail that does not start with a line terminator (`VfsUriNameParsesBack`).
- `ConnectionFileChildren.ChildStaysInConnection` holds under assumptions that the model does not derive:
  - `ResolvesLikeParser`: the manager's `resolveName` reads the connection of a pvfs URI as `ConnectionUriParser` does. The manager is not part of this model.
  - `DirectoryConsistent`: every connection is filed under its own name.
  - `PlainNative`: the native child's path, with its host in front when the domain is empty, does not start with a line terminator.
  - The parent's connection name is non-empty and holds no `/`.
- `ConnectionFileChildren.ChildrenStayInConnection` rests on the same assumptions: `ResolvesLikeParser`, `DirectoryConsistent`, a non-empty connection name without `/`, and `PlainNative` for every native child.
- Synthetic details of the legacy transformer: `setName`, `getDescription`, `getSpace` and `setSpace` are never called by the modelled code, so only `getName`, `getDomain` and the failing `getType` are modelled.
- `VfsFileProvider.GetTree`: takes the connections of all VFS providers as one flattened list in provider order. It does not model the provider registry.
- `VfsFileProvider.GetRoot`: requires a non-null path. Its only caller reaches it only for connection roots, whose path is non-empty. The connection provider for the details' type is a parameter.
- `VfsFileProvider.LocationOf`: `VFSLocation`'s default for `hasBuckets` is taken as false, and the `setHasBuckets(true)` branch is the only one that sets it.
- I/O operations of `VFSFileProvider` are not modelled: they drive real native files and an overwrite dialog. These are `delete`, `add`, `move`/`rename`/`doMove`, `copy`, `readFile`, `writeFile`, `fileExists`, `getFile`, `createDirectory` and `getFiles`.
- Also left out of `VFSFileProvider`:
  - `getNewName`, which loops on external existence checks;
  - `isSupported`, which relies on `java.net.URI` parsing.
- `FileSystemCache.GetBoolean`: for an absent parameter the library falls back to a Java system property of that name before the null default. System properties are not modelled, so an absent parameter reads as null.
- `FileSystemCache.GetString`: the same system-property fallback is left out.
- `FileSystemCache.GetInteger`: the same system-property fallback is left out.
- `FileSystemCache.EquivalentIffSameValues` is weaker than a full comparator. `compareTo` is modelled only as "answers 0", that is, as an equivalence. The sign of a non-zero comparison is left out: under value semantics it has no counterpart the scenarios fix.
- `FileSystemCache.LibraryIsFinerForVariables`: the library compares the hash codes of the option values. Hash collisions between unrelated values are not modelled: a plain `Variables` is taken to match only itself, and a job entry only job entries of its name.
- Threads and `synchronized` access to the filesystem cache are not modelled.
- The identity-hashCode assumption tests (the cache test's lines 234-350 and 409-419) probe Java object identity and are not modelled.
- Java strings are UTF-16. Here they are sequences of characters, with no surrogate handling; the modelled code does no case folding or normalisation.

=== FILE: connection_file_children.dfy ===
/**
 The children of a pvfs file (`ConnectionFileObject.getChild` and
 `getChildren`). Each native child is turned into a pvfs URI by the file's
 transformer, and that URI is resolved again through the connection file
 system, so every child is a pvfs file of its own.
 */
module ConnectionFileChildren {
  import opened Core
  import opened Text
  import opened NativeVfs
  import opened ConnectionUriParser
  import opened UriTransformers
  import opened ConnectionFileObject
  import opened ConnectionFileSystem

  /**
   The private `getChild(FileObject)`: the transformer's pvfs URI of the native
   child, resolved by name and then through the file system. A null child fails
   with a NullPointerException, since every transformer dereferences it.
   */
  function ConvertChild(fs: FileSystem, f: FileObj, child: Option<Handle>): (r: Result<FileObj>)
    ensures child.None? ==> r == Failure(NullPointer)
    ensures child.Some? && ToVfsUri(f.transformer, child.value).Failure? ==>
      r == Failure(ToVfsUri(f.transformer, child.value).error)
    ensures child.Some? && ToVfsUri(f.transformer, child.value).Success? ==>
      var uri := ToVfsUri(f.transformer, child.value).value;
      match fs.resolveName(uri)
      case Failure(e) => r == Failure(e)
      case Success(name) => r == ResolveFile(fs, name)
    ensures r.Success? ==> child.Some? && ToVfsUri(f.transformer, child.value).Success?
    ensures r.Success? ==>
      var uri := ToVfsUri(f.transformer, child.value).value;
      fs.resolveName(uri).Success? && r == ResolveFile(fs, fs.resolveName(uri).value)
  {
    match child
    case None => Failure(NullPointer)
    case Some(h) =>
      var uri :- ToVfsUri(f.transformer, h);
      var name :- fs.resolveName(uri);
      ResolveFile(fs, name)
  }

  /** `getChild(String)`: the native child of that name, converted; no native file means a NullPointerException. */
  function GetChild(fs: FileSystem, f: FileObj, childName: string): (r: Result<FileObj>)
    ensures f.resolved.None? ==> r == Failure(NullPointer)
    ensures f.resolved.Some? && fs.driver.childNamed(f.resolved.value, childName).Success? ==>
      r == ConvertChild(fs, f, fs.driver.childNamed(f.resolved.value, childName).value)
    ensures f.resolved.Some? && fs.driver.childNamed(f.resolved.value, childName).Failure? ==>
      r == Failure(fs.driver.childNamed(f.resolved.value, childName).error)
  {
    match f.resolved
    case None => Failure(NullPointer)
    case Some(h) =>
      var child :- fs.driver.childNamed(h, childName);
      ConvertChild(fs, f, child)
  }

  /** The index of the first native child whose conversion fails, or `|hs|` when none does. */
  function FirstFailing(fs: FileSystem, f: FileObj, hs: seq<Handle>): (i: nat)
    ensures i <= |hs|
    ensures forall k {:trigger ConvertChild(fs, f, Some(hs[k]))} :: 0 <= k < i ==> ConvertChild(fs, f, Some(hs[k])).Success?
    ensures i < |hs| ==> ConvertChild(fs, f, Some(hs[i])).Failure?
  {
    if hs == [] then 0
    else if ConvertChild(fs, f, Some(hs[0])).Failure? then 0
    else 1 + FirstFailing(fs, f, hs[1..])
  }

  /**
   The converted children as a reference definition: every native child
   converted in order, or the failure of the first one that does not convert.
   */
  function ConvertAll(fs: FileSystem, f: FileObj, hs: seq<Handle>): (r: Result<seq<FileObj>>)
    ensures r.Success? <==> FirstFailing(fs, f, hs) == |hs|
    ensures r.Success? ==> |r.value| == |hs|
    ensures r.Success? ==> forall i {:trigger ConvertChild(fs, f, Some(hs[i]))} {:trigger r.value[i]} ::
      0 <= i < |hs| ==> ConvertChild(fs, f, Some(hs[i])) == Success(r.value[i])
    ensures r.Failure? ==> r.error == ConvertChild(fs, f, Some(hs[FirstFailing(fs, f, hs)])).error
  {
    if hs == [] then Success([])
    else
      var first :- ConvertChild(fs, f, Some(hs[0]));
      var rest :- ConvertAll(fs, f, hs[1..]);
      Success([first] + rest)
  }

  /** `getChildren`: the native children, converted one by one, as a specification. */
  function ChildrenOf(fs: FileSystem, f: FileObj): (r: Result<seq<FileObj>>)
    ensures f.resolved.None? ==> r == Failure(NullPointer)
    ensures f.resolved.Some? && fs.driver.children(f.resolved.value).Failure? ==>
      r == Failure(fs.driver.children(f.resolved.value).error)
    ensures r.Success? ==>
      f.resolved.Some? && fs.driver.children(f.resolved.value).Success?
      && |r.value| == |fs.driver.children(f.resolved.value).value|
    ensures f.resolved.Some? && fs.driver.children(f.resolved.value).Success? ==>
      var hs := fs.driver.children(f.resolved.value).value;
      r.Success? <==> forall k {:trigger ConvertChild(fs, f, Some(hs[k]))} :: 0 <= k < |hs| ==> ConvertChild(fs, f, Some(hs[k])).Success?
  {
    match f.resolved
    case None => Failure(NullPointer)
    case Some(h) =>
      var hs :- fs.driver.children(h);
      ConvertAll(fs, f, hs)
  }

  /** `children` are the conversions of the first `|children|` native children, in order. */
  ghost predicate ConvertsTo(fs: FileSystem, f: FileObj, hs: seq<Handle>, children: seq<FileObj>) {
    |children| <= |hs|
    && forall k {:trigger ConvertChild(fs, f, Some(hs[k]))} :: 0 <= k < |children| ==>
         ConvertChild(fs, f, Some(hs[k])) == Success(children[k])
  }

  /**
   `getChildren`: an array as long as the native children, child `i` being the
   conversion of native child `i`; the first failing conversion aborts the call.
   */
  method GetChildren(fs: FileSystem, f: FileObj) returns (r: Result<seq<FileObj>>)
    ensures r == ChildrenOf(fs, f)
    ensures f.resolved.None? ==> r == Failure(NullPointer)
    ensures r.Success? ==>
      var hs := fs.driver.children(f.resolved.value).value;
      |r.value| == |hs| && forall i :: 0 <= i < |hs| ==> ConvertChild(fs, f, Some(hs[i])) == Success(r.value[i])
  {
    if f.resolved.None? {
      return Failure(NullPointer);
    }
    var h := f.resolved.value;
    var listed := fs.driver.children(h);
    if listed.Failure? {
      return Failure(listed.error);
    }
    var hs := listed.value;
    var children: seq<FileObj> := [];
    var i := 0;
    while i < |hs|
      invariant i <= |hs| && |children| == i
      invariant ConvertsTo(fs, f, hs, children)
    {
      var child := ConvertChild(fs, f, Some(hs[i]));
      if child.Failure? {
        FailureAborts(fs, f, hs, children);
        return Failure(child.error);
      }
      ConvertsToExtend(fs, f, hs, children, child.value);
      children := children + [child.value];
      i := i + 1;
    }
    ConvertAllOfConverted(fs, f, hs, children);
    return Success(children);
  }

  /** One more converted child extends the converted prefix. */
  lemma ConvertsToExtend(fs: FileSystem, f: FileObj, hs: seq<Handle>, children: seq<FileObj>, c: FileObj)
    requires ConvertsTo(fs, f, hs, children) && |children| < |hs|
    requires ConvertChild(fs, f, Some(hs[|children|])) == Success(c)
    ensures ConvertsTo(fs, f, hs, children + [c])
  {
    var ext := children + [c];
    forall k | 0 <= k < |ext|
      ensures ConvertChild(fs, f, Some(hs[k])) == Success(ext[k])
    {
      if k < |children| {
        assert ext[k] == children[k];
      }
    }
  }

  /** The first native child that does not convert decides the failure of the whole listing. */
  lemma FailureAborts(fs: FileSystem, f: FileObj, hs: seq<Handle>, children: seq<FileObj>)
    requires ConvertsTo(fs, f, hs, children) && |children| < |hs|
    requires ConvertChild(fs, f, Some(hs[|children|])).Failure?
    ensures ConvertAll(fs, f, hs) == Failure(ConvertChild(fs, f, Some(hs[|children|])).error)
  {
    assert FirstFailing(fs, f, hs) == |children|;
  }

  /** Children that each convert from the native child at their index are what ConvertAll yields. */
  lemma ConvertAllOfConverted(fs: FileSystem, f: FileObj, hs: seq<Handle>, children: seq<FileObj>)
    requires ConvertsTo(fs, f, hs, children) && |children| == |hs|
    ensures ConvertAll(fs, f, hs) == Success(children)
  {
    var ff := FirstFailing(fs, f, hs);
    assert ff == |hs|;
    var all := ConvertAll(fs, f, hs);
    assert all.Success?;
    forall k | 0 <= k < |hs|
      ensures all.value[k] == children[k]
    {
      assert ConvertChild(fs, f, Some(hs[k])) == Success(all.value[k]);
    }
    assert all.value == children;
  }

  // ---------------------------------------------------------------------------
  // Children stay in their parent's connection.

  /** Every connection is filed under its own name. */
  ghost predicate DirectoryConsistent(fs: FileSystem) {
    forall k :: k in fs.connections ==> fs.connections[k].name == k
  }

  /** The manager reads the connection of a pvfs URI as the parser does. */
  ghost predicate ResolvesLikeParser(fs: FileSystem) {
    forall u :: fs.resolveName(u).Success? ==> Parse(Some(u)).connectionName == Some(fs.resolveName(u).value.connection)
  }

  /**
   The text `toVfsUri` writes after `pvfs://name/` for this native file, with or
   without its host in front, does not start with a line terminator.
   */
  predicate PlainNative(c: Handle) {
    StartsPlain(c.name.path) && (HostOf(c).Success? ==> StartsPlain(HostOf(c).value + c.name.path))
  }

  /**
   A child of a resolved pvfs file is a pvfs file of the same connection: the
   transformer writes the parent's connection name into the child's URI, the
   parser reads it back, and resolving keeps it.
   */
  lemma ChildStaysInConnection(fs: FileSystem, name: ConnectionFileName, c: Handle)
    requires DirectoryConsistent(fs) && ResolvesLikeParser(fs)
    requires |name.connection| > 0 && NoSlash(name.connection)
    requires ResolveFile(fs, name).Success?
    requires PlainNative(c)
    requires ConvertChild(fs, ResolveFile(fs, name).value, Some(c)).Success?
    ensures ConvertChild(fs, ResolveFile(fs, name).value, Some(c)).value.name.connection == name.connection
  {
    var f := ResolveFile(fs, name).value;
    var t := f.transformer;
    assert DetailsName(DelegateDetails(t)) == name.connection;
    assert StartsPlain(VfsTail(t, c));
    VfsUriNameParsesBack(t, c);
    var uri := ToVfsUri(t, c).value;
    var childName := fs.resolveName(uri).value;
    assert childName.connection == name.connection;
  }

  /** Every child `getChildren` returns for a resolved pvfs file lies in the parent's connection. */
  lemma ChildrenStayInConnection(fs: FileSystem, name: ConnectionFileName)
    requires DirectoryConsistent(fs) && ResolvesLikeParser(fs)
    requires |name.connection| > 0 && NoSlash(name.connection)
    requires ResolveFile(fs, name).Success?
    requires var f := ResolveFile(fs, name).value;
      forall c :: fs.driver.children(f.resolved.value).Success? && c in fs.driver.children(f.resolved.value).value
        ==> PlainNative(c)
    ensures var r := ChildrenOf(fs, ResolveFile(fs, name).value);
      r.Success? ==> forall i :: 0 <= i < |r.value| ==> r.value[i].name.connection == name.connection
  {
    var f := ResolveFile(fs, name).value;
    var r := ChildrenOf(fs, f);
    if r.Success? {
      var hs := fs.driver.children(f.resolved.value).value;
      forall i | 0 <= i < |r.value|
        ensures r.value[i].name.connection == name.connection
      {
        assert hs[i] in hs;
        ChildStaysInConnection(fs, name, hs[i]);
      }
    }
  }
}

=== FILE: connection_file_object.dfy ===
/**
 `ConnectionFileObject`: a pvfs file that wraps the native file it resolves to
 (possibly none) together with the connection's domain and the URI transformer
 that turns native children back into pvfs URIs. Everything it does with the
 native file is delegated to it; the operations that need the file system
 (getChild, getChildren) are in ConnectionFileSystem.
 */
module ConnectionFileObject {
  import opened Core
  import opened Text
  import opened NativeVfs
  import opened ConnectionUriParser
  import opened UriTransformers

  /**
   A `ConnectionFileName`: the connection and the path inside it. Its URI is
   `pvfs://` + connection + path; the class itself is not part of this model.
   */
  datatype ConnectionFileName = ConnectionFileName(connection: string, path: string)

  /** The URI of a connection file name. */
  function NameUri(n: ConnectionFileName): string {
    Scheme + "://" + n.connection + n.path
  }

  /** A connection file object; `resolved` is `None` where the Java field is `null`. */
  datatype FileObj = FileObj(
    name: ConnectionFileName,
    resolved: Option<Handle>,
    domain: Option<string>,
    transformer: Transformer)

  /**
   The deprecated four-argument constructor: it installs a legacy transformer
   built from this object's own connection and the same domain.
   */
  function NewLegacy(name: ConnectionFileName, resolved: Option<Handle>, domain: Option<string>): (f: FileObj)
    ensures f.name == name && f.resolved == resolved && f.domain == domain
    ensures f.transformer.LegacyTransformer?
    ensures f.transformer.connectionName == f.name.connection && f.transformer.connectionDomain == f.domain
  {
    FileObj(name, resolved, domain, LegacyTransformer(name.connection, domain))
  }

  /** The five-argument constructor: the transformer is the one given. */
  function NewWith(name: ConnectionFileName, resolved: Option<Handle>, domain: Option<string>, t: Transformer): (f: FileObj)
    ensures f.name == name && f.resolved == resolved && f.domain == domain && f.transformer == t
  {
    FileObj(name, resolved, domain, t)
  }

  /**
   A file built by the legacy constructor converts native children exactly as a
   default transformer over real details whose name is the file's connection and
   whose domain is the file's domain.
   */
  lemma LegacyFileConvertsLikeDefault(name: ConnectionFileName, resolved: Option<Handle>, domain: Option<string>,
                                      x: Details, child: Handle)
    requires x.name == name.connection && x.domain == domain
    ensures ToVfsUri(NewLegacy(name, resolved, domain).transformer, child) == DefaultToVfsUri(Real(x), child)
  {
    LegacyAgreesWithDefault(name.connection, domain, x, child);
  }

  /** `exists()`: false without a native file, otherwise whatever the native file answers. */
  function Exists(f: FileObj, drv: Driver): (r: Result<bool>)
    ensures f.resolved.None? ==> r == Success(false)
    ensures f.resolved.Some? ==> r == drv.fileExists(f.resolved.value)
    ensures r == Success(true) ==> f.resolved.Some?
  {
    match f.resolved
    case None => Success(false)
    case Some(h) => drv.fileExists(h)
  }

  /** `refresh()`: nothing to do without a native file, otherwise the native refresh. */
  function Refresh(f: FileObj, drv: Driver): (r: Outcome)
    ensures f.resolved.None? ==> r == Pass
    ensures f.resolved.Some? ==> r == drv.refresh(f.resolved.value)
  {
    match f.resolved
    case None => Pass
    case Some(h) => drv.refresh(h)
  }

  /**
   Every other operation (canRenameTo, close, copyFrom, createFile,
   createFolder, delete, getContent, getType, isFile, moveTo, and the rest) passes
   straight to the native file, and fails with a NullPointerException without one.
   */
  function Delegate<T>(f: FileObj, op: Handle -> Result<T>): (r: Result<T>)
    ensures f.resolved.None? ==> r == Failure(NullPointer)
    ensures f.resolved.Some? ==> r == op(f.resolved.value)
  {
    match f.resolved
    case None => Failure(NullPointer)
    case Some(h) => op(h)
  }

  /** `getOriginalURIString()`: the pvfs URI of the object's own name, not the native URI. */
  function GetOriginalUriString(f: FileObj): (u: string)
    ensures StartsWith(u, Scheme + "://" + f.name.connection)
  {
    assert NameUri(f.name)[..|Scheme + "://" + f.name.connection|] == Scheme + "://" + f.name.connection;
    NameUri(f.name)
  }

  /** The original URI depends on the name alone: the native file, domain and transformer play no part. */
  lemma OriginalUriIgnoresNativeFile(f: FileObj, g: FileObj)
    requires f.name == g.name
    ensures GetOriginalUriString(f) == GetOriginalUriString(g)
  {
  }

  /** The original URI parses back into `pvfs`, the connection and the path. */
  lemma OriginalUriParsesBack(f: FileObj)
    requires |f.name.connection| > 0 && NoSlash(f.name.connection)
    requires |f.name.path| >= 2 && f.name.path[0] == '/' && NoLineTerminator(f.name.path)
    ensures Parse(Some(GetOriginalUriString(f))) == ParsedUri(Some(Scheme), Some(f.name.connection), Some(f.name.path))
  {
    assert IsWord(Scheme) by {
      assert Scheme == "pvfs";
    }
    ParseRoundTrip(Scheme, f.name.connection, f.name.path);
  }

  /** The root of a connection, path `/`, parses back into `pvfs` and the connection with no path. */
  lemma OriginalUriOfRootParses(f: FileObj)
    requires |f.name.connection| > 0 && NoSlash(f.name.connection)
    requires f.name.path == "/"
    ensures Parse(Some(GetOriginalUriString(f))) == ParsedUri(Some(Scheme), Some(f.name.connection), None)
  {
    SchemeIsWord();
    ParseNameOnly(Scheme, f.name.connection, f.name.path);
  }

  /**
   `getAELSafeURIString()`: the native public URI with its first `s3://`
   rewritten to `s3a://`; without a native file it fails with a NullPointerException.
   */
  function GetAelSafeUriString(f: FileObj): (r: Result<string>)
    ensures f.resolved.None? ==> r == Failure(NullPointer)
    ensures f.resolved.Some? ==> r.Success?
  {
    match f.resolved
    case None => Failure(NullPointer)
    case Some(h) => Success(ReplaceFirst(h.publicUri, "s3://", "s3a://"))
  }

  /** A public URI without `s3://` comes through unchanged. */
  lemma AelSafeUriWithoutS3(f: FileObj)
    requires f.resolved.Some?
    requires forall i :: !HasAt(f.resolved.value.publicUri, i, "s3://")
    ensures GetAelSafeUriString(f) == Success(f.resolved.value.publicUri)
  {
    ReplaceFirstWithoutOccurrence(f.resolved.value.publicUri, "s3://", "s3a://");
  }

  /**
   In a public URI `a + "s3://" + b` whose first `s3://` is the one after `a`,
   only that occurrence changes: the result is `a + "s3a://" + b`, later
   occurrences in `b` included unchanged.
   */
  lemma AelSafeUriRewritesFirstS3(f: FileObj, a: string, b: string)
    requires f.resolved.Some? && f.resolved.value.publicUri == a + "s3://" + b
    requires forall i :: 0 <= i < |a| ==> !HasAt(a + "s3://" + b, i, "s3://")
    ensures GetAelSafeUriString(f) == Success(a + "s3a://" + b)
  {
    ReplaceFirstSplits(a, "s3://", b, "s3a://");
  }
}

=== FILE: connection_file_system.dfy ===
/**
 `ConnectionFileSystem`: the file system behind the pvfs scheme. Resolving a
 pvfs file name looks up the connection's details, turns the name into the
 provider URL with the connection's transformer, resolves that URL natively,
 and wraps the native file in a ConnectionFileObject. The pvfs file object's
 `getChild` and `getChildren` go back through this file system, so they are
 modelled here too.
 */
module ConnectionFileSystem {
  import opened Core
  import opened Text
  import opened NativeVfs
  import opened ConnectionUriParser
  import opened UriTransformers
  import opened ConnectionFileObject

  /** The variable `createFile` sets to the connection's name before the native lookup. */
  const Connection: string := "connection"

  /** The error code of the FileSystemException that `resolveFile` wraps every failure in. */
  const ResolveFileError: string := "vfs.provider/resolve-file.error"

  /**
   What a file system instance works with: the connection manager's details by
   connection name, the native side, the variable space held by its file-system
   options, and the manager's `resolveName` for pvfs URIs (a failure for a URI it
   cannot read).
   */
  datatype FileSystem = FileSystem(
    connections: map<string, Details>,
    driver: Driver,
    variables: Vars,
    resolveName: string -> Result<ConnectionFileName>)

  /** `getConnectionDetails(name)`: `None` for an unknown connection. */
  function Lookup(fs: FileSystem, connection: string): (d: Option<Details>)
    ensures d.Some? <==> connection in fs.connections
    ensures d.Some? ==> d.value == fs.connections[connection]
  {
    if connection in fs.connections then Some(fs.connections[connection]) else None
  }

  /** The connection is known and its details are VFS connection details. */
  predicate KnownVfs(fs: FileSystem, connection: string) {
    connection in fs.connections && fs.connections[connection].kind != Plain
  }

  /** Details that survive the cast to VFSConnectionDetails (a null reference does). */
  predicate IsVfsDetails(d: Option<Details>) {
    d.None? || d.value.kind != Plain
  }

  /**
   `getVFSUriTransformer`: base details are their own transformer; any other
   details, or none, are wrapped in a default transformer.
   */
  function GetVfsUriTransformer(d: Option<Details>): (t: Transformer)
    requires IsVfsDetails(d)
    ensures d.Some? && d.value.kind == BaseVfs ==> t == DetailsTransformer(d.value)
    ensures d.Some? && d.value.kind != BaseVfs ==> t == DefaultTransformer(Real(d.value))
    ensures d.None? ==> t == DefaultTransformer(NullDetails)
    ensures !t.LegacyTransformer?
  {
    match d
    case None => DefaultTransformer(NullDetails)
    case Some(x) => if x.kind == BaseVfs then DetailsTransformer(x) else DefaultTransformer(Real(x))
  }

  /**
   `getUrl`: cast the details to VFSConnectionDetails, then ask the selected
   transformer for the provider URI of the name's path.
   */
  function GetUrl(name: ConnectionFileName, d: Option<Details>): (r: Result<string>)
    ensures !IsVfsDetails(d) ==> r == Failure(ClassCast)
    ensures IsVfsDetails(d) ==> r == ToProviderUri(GetVfsUriTransformer(d), name.path)
  {
    if !IsVfsDetails(d) then Failure(ClassCast)
    else ToProviderUri(GetVfsUriTransformer(d), name.path)
  }

  /**
   Whatever the kind of VFS details, `getUrl` is the default transformer's
   provider URI over them: the strategy leaves the URL unchanged. An unknown
   connection fails with a NullPointerException, never with a URL.
   */
  lemma GetUrlIsDefaultProviderUri(name: ConnectionFileName, d: Option<Details>)
    requires IsVfsDetails(d)
    ensures d.Some? ==> GetUrl(name, d) == DefaultToProviderUri(Real(d.value), name.path)
    ensures d.None? ==> GetUrl(name, d) == Failure(NullPointer)
  {
  }

  /** `getUrl` never yields a URL for a missing or domain-less connection, and yields one otherwise. */
  lemma GetUrlSucceedsIffDomain(name: ConnectionFileName, d: Option<Details>)
    requires IsVfsDetails(d)
    ensures GetUrl(name, d).Success? <==> d.Some? && d.value.domain.Some?
  {
  }

  /**
   `createConnectionFile`: base details become the new object's transformer;
   anything else, a null reference included, gets the legacy constructor.
   */
  function CreateConnectionFile(d: Option<Details>, name: ConnectionFileName, resolved: Option<Handle>,
                                domain: Option<string>): (f: FileObj)
    ensures f.name == name && f.resolved == resolved && f.domain == domain
    ensures d.Some? && d.value.kind == BaseVfs ==> f.transformer == DetailsTransformer(d.value)
    ensures !(d.Some? && d.value.kind == BaseVfs) ==> f.transformer == LegacyTransformer(name.connection, domain)
  {
    if d.Some? && d.value.kind == BaseVfs then NewWith(name, resolved, domain, DetailsTransformer(d.value))
    else NewLegacy(name, resolved, domain)
  }

  /** `setSpace` on the details, when there are any. */
  function WithSpace(d: Option<Details>, space: Vars): (e: Option<Details>)
    ensures e.None? <==> d.None?
    ensures e.Some? ==> e.value == d.value.(space := Some(space))
  {
    match d
    case None => None
    case Some(x) => Some(x.(space := Some(space)))
  }

  /**
   `createFile`. The details of the name's connection are cast, given the
   options' variable space, and asked for the URL. The URL is never null (no
   transformer returns one), so the source's null-URL branch is dead. The domain
   is then read, the `connection` variable is set to the connection name, the URL
   is resolved natively, and the result is wrapped.
   */
  function CreateFile(fs: FileSystem, name: ConnectionFileName): (r: Result<FileObj>)
    ensures name.connection !in fs.connections ==> r == Failure(NullPointer)
    ensures name.connection in fs.connections && fs.connections[name.connection].kind == Plain ==> r == Failure(ClassCast)
    ensures KnownVfs(fs, name.connection) && fs.connections[name.connection].domain.None? ==> r == Failure(NullPointer)
    ensures KnownVfs(fs, name.connection) && fs.connections[name.connection].domain.Some? ==>
      var x := fs.connections[name.connection].(space := Some(fs.variables));
      GetUrl(name, Some(x)).Success?
      && match fs.driver.resolve(GetUrl(name, Some(x)).value, fs.variables[Connection := name.connection])
         case Failure(e) => r == Failure(e)
         case Success(h) => r == Success(CreateConnectionFile(Some(x), name, Some(h), x.domain))
    ensures r.Success? ==>
      var x := fs.connections[name.connection].(space := Some(fs.variables));
      name.connection in fs.connections && x.kind != Plain && x.domain.Some?
      && r.value.name == name && r.value.domain == x.domain && r.value.resolved.Some?
      && fs.driver.resolve(GetUrl(name, Some(x)).value, fs.variables[Connection := name.connection])
         == Success(r.value.resolved.value)
      && (x.kind == BaseVfs ==> r.value.transformer == DetailsTransformer(x))
      && (x.kind != BaseVfs ==> r.value.transformer == LegacyTransformer(name.connection, x.domain))
  {
    var details := Lookup(fs, name.connection);
    if !IsVfsDetails(details) then Failure(ClassCast)
    else
      var configured := WithSpace(details, fs.variables);
      var url :- GetUrl(name, configured);
      var domain := configured.value.domain;
      var space := fs.variables[Connection := name.connection];
      var handle :- fs.driver.resolve(url, space);
      Success(CreateConnectionFile(configured, name, Some(handle), domain))
  }

  /** `resolveFile`: every failure of `createFile` comes out as a FileSystemException carrying it. */
  function ResolveFile(fs: FileSystem, name: ConnectionFileName): (r: Result<FileObj>)
    ensures r.Success? <==> CreateFile(fs, name).Success?
    ensures r.Success? ==> r == CreateFile(fs, name)
    ensures r.Failure? ==> r.error == FileSystemError(ResolveFileError, Some(CreateFile(fs, name).error))
  {
    match CreateFile(fs, name)
    case Success(f) => Success(f)
    case Failure(e) => Failure(FileSystemError(ResolveFileError, Some(e)))
  }

  /**
   The native handle `createFile` resolves for a name: the driver's answer for
   the connection's URL, with `connection` set to the connection's name.
   */
  function NativeOf(fs: FileSystem, name: ConnectionFileName): (r: Result<Handle>)
    requires KnownVfs(fs, name.connection) && fs.connections[name.connection].domain.Some?
    ensures r == fs.driver.resolve(GetUrl(name, Some(fs.connections[name.connection].(space := Some(fs.variables)))).value,
                                   fs.variables[Connection := name.connection])
  {
    var x := fs.connections[name.connection].(space := Some(fs.variables));
    GetUrlSucceedsIffDomain(name, Some(x));
    fs.driver.resolve(GetUrl(name, Some(x)).value, fs.variables[Connection := name.connection])
  }

  /**
   A pvfs file resolves exactly when its connection is known, is a VFS
   connection with a domain, and the native side resolves the connection's URL;
   the file then wraps that native file and carries the connection's domain.
   */
  lemma ResolveFileSucceedsIff(fs: FileSystem, name: ConnectionFileName)
    ensures ResolveFile(fs, name).Success? <==>
      KnownVfs(fs, name.connection) && fs.connections[name.connection].domain.Some? && NativeOf(fs, name).Success?
    ensures ResolveFile(fs, name).Success? ==>
      var f := ResolveFile(fs, name).value;
      f.name == name && f.resolved == Some(NativeOf(fs, name).value)
      && f.domain == fs.connections[name.connection].domain
  {
  }

  /** `refresh()` of a resolved pvfs file is the native refresh of the handle `createFile` resolved. */
  lemma ResolvedFileRefreshesNative(fs: FileSystem, name: ConnectionFileName)
    requires ResolveFile(fs, name).Success?
    ensures KnownVfs(fs, name.connection) && fs.connections[name.connection].domain.Some?
    ensures NativeOf(fs, name).Success?
    ensures Refresh(ResolveFile(fs, name).value, fs.driver) == fs.driver.refresh(NativeOf(fs, name).value)
  {
    ResolveFileSucceedsIff(fs, name);
  }

  /** A file of an unknown connection fails to resolve, with the NullPointerException as the cause. */
  lemma UnknownConnectionFailsToResolve(fs: FileSystem, name: ConnectionFileName)
    requires name.connection !in fs.connections
    ensures ResolveFile(fs, name) == Failure(FileSystemError(ResolveFileError, Some(NullPointer)))
  {
  }

  /** A resolved file always holds a native file, so its `exists` is the native answer. */
  lemma ResolvedFileExistsIsNative(fs: FileSystem, name: ConnectionFileName)
    requires ResolveFile(fs, name).Success?
    ensures var f := ResolveFile(fs, name).value;
      f.resolved.Some? && Exists(f, fs.driver) == fs.driver.fileExists(f.resolved.value)
  {
  }
}

=== FILE: connection_file_system_examples.dfy ===
/**
 One connection, end to end: a VFS connection with a domain, a native side
 that resolves every URL, and a connection manager that reads pvfs URIs with
 `ConnectionUriParser`. Its root resolves, refreshes through the native file,
 and lists one child that lies in the same connection.
 */
module ConnectionFileSystemExamples {
  import opened Core
  import opened Text
  import opened NativeVfs
  import opened ConnectionUriParser
  import opened UriTransformers
  import opened ConnectionFileObject
  import opened ConnectionFileSystem
  import opened ConnectionFileChildren

  const Conn: string := "someConnectionName"
  const Domain: string := "someDomain"
  const ConnDetails: Details := Details(Vfs, Conn, "s3", Some(Domain), false, None)

  /** The one native child of every native file. */
  const Child: Handle := Handle(PathName("/someDir/randomFile.txt"), Success("someHost"), "s3://someDomain/someDir/randomFile.txt")

  /** The manager's `resolveName`: the connection and path the parser reads, and a failure when it reads no connection. */
  function Manager(u: string): (r: Result<ConnectionFileName>)
    ensures r.Success? <==> Parse(Some(u)).connectionName.Some?
    ensures r.Success? ==> Some(r.value.connection) == Parse(Some(u)).connectionName
  {
    var p := Parse(Some(u));
    if p.connectionName.None? then Failure(NullPointer)
    else Success(ConnectionFileName(p.connectionName.value, if p.pvfsPath.Some? then p.pvfsPath.value else "/"))
  }

  /** A native side on which every URL resolves and every file has the one child. */
  const Native: Driver := Driver(
    (u, v) => Success(Handle(PathName("/"), Success("someHost"), u)),
    h => Success(true),
    h => Success([Child]),
    (h, n) => Success(None),
    h => Pass)

  const Fs: FileSystem := FileSystem(map[Conn := ConnDetails], Native, map[], Manager)

  const Root: ConnectionFileName := ConnectionFileName(Conn, "/")

  /** The connection's root resolves, and its `refresh` is the native refresh. */
  lemma RootResolves()
    ensures ResolveFile(Fs, Root).Success?
    ensures ResolveFile(Fs, Root).value.resolved.Some?
    ensures Refresh(ResolveFile(Fs, Root).value, Fs.driver) == Pass
  {
    assert Fs.driver.resolve(GetUrl(Root, Some(ConnDetails.(space := Some(Fs.variables)))).value,
                             Fs.variables[Connection := Conn]).Success?;
    ResolveFileSucceedsIff(Fs, Root);
  }

  /** The root lists exactly one child, and that child lies in the root's connection. */
  lemma RootChildStaysInConnection()
    ensures ResolveFile(Fs, Root).Success?
    ensures var r := ChildrenOf(Fs, ResolveFile(Fs, Root).value);
            r.Success? && |r.value| == 1 && r.value[0].name.connection == Conn
  {
    RootResolves();
    var f := ResolveFile(Fs, Root).value;
    var t := f.transformer;
    assert t == LegacyTransformer(Conn, Some(Domain));
    assert Fs.driver.children(f.resolved.value) == Success([Child]);
    assert VfsTail(t, Child) == Child.name.path;
    assert StartsPlain(Child.name.path) by {
      assert Child.name.path[0] == '/';
    }
    assert NoSlash(Conn) by {
      forall i | 0 <= i < |Conn|
        ensures Conn[i] != '/'
      {
      }
    }
    VfsUriNameParsesBack(t, Child);
    var uri := ToVfsUri(t, Child).value;
    var name := Fs.resolveName(uri).value;
    assert name.connection == Conn;
    RootResolvesAnyPath(name);
    assert ConvertChild(Fs, f, Some(Child)).Success?;
    assert DirectoryConsistent(Fs);
    assert ResolvesLikeParser(Fs);
    assert PlainNative(Child) by {
      assert HostOf(Child).value + Child.name.path == "someHost" + Child.name.path;
      assert ("someHost" + Child.name.path)[0] == 's';
    }
    ChildrenStayInConnection(Fs, Root);
  }

  /** Any file name of the connection resolves, whatever its path. */
  lemma RootResolvesAnyPath(name: ConnectionFileName)
    requires name.connection == Conn
    ensures ResolveFile(Fs, name).Success?
  {
    assert Fs.driver.resolve(GetUrl(name, Some(ConnDetails.(space := Some(Fs.variables)))).value,
                             Fs.variables[Connection := Conn]).Success?;
    ResolveFileSucceedsIff(Fs, name);
  }
}

=== FILE: connection_uri_parser.dfy ===
/**
 The pvfs URI parser. It splits a connection URI such as
 `pvfs://connectionName/someFolder/someFile.txt` into scheme, connection name
 and path. It does not use an RFC 3986 parser, because the connection-name
 segment may hold almost any character. Three patterns are tried in order, each
 with `Matcher.find()`, which searches for the leftmost match and is not anchored:

   1. `(\w+)://([^/]+)(/.+)`   scheme, connection name and path
   2. `(\w+)://([^/]+)/?`      scheme and connection name
   3. `(\w+)://`               scheme only

 A missing field stays `null` (here `None`), and a `null` input is absorbed.

 The regex semantics are stated declaratively by SchemeShape, NameShape and
 PathShape: a decomposition of the input that fits the pattern. The matcher
 MatchAt computes the match that Java's backtracking engine reports. The lemmas
 below prove that it is exactly the greedy match of the pattern, and that Parse
 reports the leftmost one.
 */
module ConnectionUriParser {
  import opened Core
  import opened Text

  /** The three patterns, in the order they are tried. */
  datatype Rule = PathRule | NameRule | SchemeRule

  /**
   One match, by the positions of its groups: group 1 is `s[start..schemeEnd]`,
   group 2 is `s[schemeEnd + 3..nameEnd]` and group 3 is `s[nameEnd..pathEnd]`.
   A group the pattern lacks is left empty.
   */
  datatype Groups = Groups(start: nat, schemeEnd: nat, nameEnd: nat, pathEnd: nat)

  /** The parser's three getters. */
  datatype ParsedUri = ParsedUri(scheme: Option<string>, connectionName: Option<string>, pvfsPath: Option<string>)

  /** `(\w+)://` matches `s[i..j+3]` with group 1 = `s[i..j]`. */
  ghost predicate SchemeShape(s: string, i: int, j: int) {
    0 <= i < j && j + 3 <= |s| && Every(s, i, j, IsWordChar) && HasAt(s, j, "://")
  }

  /** `(\w+)://([^/]+)` matches `s[i..m]`; the optional `/?` never blocks a match. */
  ghost predicate NameShape(s: string, i: int, j: int, m: int) {
    SchemeShape(s, i, j) && j + 3 < m <= |s| && Every(s, j + 3, m, IsNotSlash)
  }

  /** `(\w+)://([^/]+)(/.+)` matches `s[i..e]`, group 3 being `s[m..e]`. */
  ghost predicate PathShape(s: string, i: int, j: int, m: int, e: int) {
    NameShape(s, i, j, m) && m + 1 < e <= |s| && s[m] == '/' && Every(s, m + 1, e, IsNotLineTerminator)
  }

  /** The groups `g` are a match of `rule` in `s`. */
  ghost predicate Fits(rule: Rule, s: string, g: Groups) {
    match rule
    case SchemeRule => SchemeShape(s, g.start, g.schemeEnd)
    case NameRule => NameShape(s, g.start, g.schemeEnd, g.nameEnd)
    case PathRule => PathShape(s, g.start, g.schemeEnd, g.nameEnd, g.pathEnd)
  }

  /** Where group 1 of `(\w+)://` tried at `i` ends: after the greedy `\w` run, if `://` follows it. */
  function SchemeEnd(s: string, i: nat): (j: Option<nat>)
    requires i <= |s|
    ensures j.Some? ==> SchemeShape(s, i, j.value)
  {
    var j := RunEnd(s, i, IsWordChar);
    if j == i || !HasAt(s, j, "://") then None else Some(j)
  }

  /** Where `([^/]+)` tried at `k` ends: after the greedy run of non-slashes, if it is not empty. */
  function NameEnd(s: string, k: nat): (m: Option<nat>)
    requires k <= |s|
    ensures m.Some? ==> k < m.value <= |s| && Every(s, k, m.value, IsNotSlash)
  {
    var m := RunEnd(s, k, IsNotSlash);
    if m == k then None else Some(m)
  }

  /** Where `(/.+)` tried at `m` ends: a `/`, then the greedy run up to a line terminator, which must not be empty. */
  function PathEnd(s: string, m: nat): (e: Option<nat>)
    requires m <= |s|
    ensures e.Some? ==> m + 1 < e.value <= |s| && s[m] == '/' && Every(s, m + 1, e.value, IsNotLineTerminator)
  {
    if m == |s| || s[m] != '/' then None
    else
      var e := RunEnd(s, m + 1, IsNotLineTerminator);
      if e == m + 1 then None else Some(e)
  }

  /** What Java's matcher reports for `rule` when it tries position `i` of `s`. */
  function MatchAt(rule: Rule, s: string, i: nat): (g: Option<Groups>)
    ensures g.Some? ==> g.value.start == i && Fits(rule, s, g.value)
  {
    if i > |s| then None
    else match SchemeEnd(s, i)
      case None => None
      case Some(j) =>
        if rule == SchemeRule then Some(Groups(i, j, j + 3, j + 3))
        else match NameEnd(s, j + 3)
          case None => None
          case Some(m) =>
            if rule == NameRule then Some(Groups(i, j, m, m))
            else match PathEnd(s, m)
              case None => None
              case Some(e) => Some(Groups(i, j, m, e))
  }

  /** `Matcher.find()`: the match at the leftmost position from `from` on. */
  function Find(rule: Rule, s: string, from: nat): (g: Option<Groups>)
    ensures g.Some? ==> from <= g.value.start <= |s| && MatchAt(rule, s, g.value.start) == g
    ensures g.Some? ==> forall i :: from <= i < g.value.start ==> MatchAt(rule, s, i).None?
    ensures g.None? ==> forall i :: from <= i <= |s| ==> MatchAt(rule, s, i).None?
    decreases |s| + 1 - from
  {
    if from > |s| then None
    else
      match MatchAt(rule, s, from)
      case Some(g) => Some(g)
      case None => Find(rule, s, from + 1)
  }

  /** A match that no earlier position has is the one `find()` reports. */
  lemma FindLeftmost(rule: Rule, s: string, i: nat)
    requires MatchAt(rule, s, i).Some?
    requires forall i' :: 0 <= i' < i ==> MatchAt(rule, s, i').None?
    ensures Find(rule, s, 0) == MatchAt(rule, s, i)
  {
    var f := Find(rule, s, 0);
    assert f.Some?;
    assert f.value.start == i;
  }

  /**
   `new ConnectionUriParser(vfsUri)` followed by the three getters. The rules are
   tried in order; rule 3's guard `connectionName == null` always holds, because
   the field is still unset when rule 3 is reached. The group-count guards always
   hold too, since every pattern has the groups it is read for. A `null` input
   throws a NullPointerException inside `matcher`, which is caught.
   */
  function Parse(vfsUri: Option<string>): (p: ParsedUri)
    ensures vfsUri.None? ==> p == ParsedUri(None, None, None)
    ensures p.scheme.Some? ==> IsWord(p.scheme.value)
    ensures p.connectionName.Some? ==> p.scheme.Some? && |p.connectionName.value| > 0 && NoSlash(p.connectionName.value)
    ensures p.pvfsPath.Some? ==> p.connectionName.Some?
    ensures p.pvfsPath.Some? ==> |p.pvfsPath.value| >= 2 && p.pvfsPath.value[0] == '/'
    ensures p.pvfsPath.Some? ==> NoLineTerminator(p.pvfsPath.value)
  {
    match vfsUri
    case None => ParsedUri(None, None, None)
    case Some(s) =>
      match Find(PathRule, s, 0)
      case Some(g) =>
        FitGroups(PathRule, s, g);
        ParsedUri(Some(s[g.start..g.schemeEnd]), Some(s[g.schemeEnd + 3..g.nameEnd]), Some(s[g.nameEnd..g.pathEnd]))
      case None =>
        match Find(NameRule, s, 0)
        case Some(g) =>
          FitGroups(NameRule, s, g);
          ParsedUri(Some(s[g.start..g.schemeEnd]), Some(s[g.schemeEnd + 3..g.nameEnd]), None)
        case None =>
          match Find(SchemeRule, s, 0)
          case Some(g) =>
            FitGroups(SchemeRule, s, g);
            ParsedUri(Some(s[g.start..g.schemeEnd]), None, None)
          case None => ParsedUri(None, None, None)
  }

  /** The groups of a fit hold what their patterns let through. */
  lemma FitGroups(rule: Rule, s: string, g: Groups)
    requires Fits(rule, s, g)
    ensures g.start < g.schemeEnd && g.schemeEnd + 3 <= |s| && IsWord(s[g.start..g.schemeEnd])
    ensures rule != SchemeRule ==> g.schemeEnd + 3 < g.nameEnd <= |s| && NoSlash(s[g.schemeEnd + 3..g.nameEnd])
    ensures rule == PathRule ==> g.nameEnd + 1 < g.pathEnd <= |s| && s[g.nameEnd] == '/'
                                 && NoLineTerminator(s[g.nameEnd..g.pathEnd])
  {
  }

  /** A fit of rule 1 or 2 contains a fit of `(\w+)://([^/]+)`, and every fit one of `(\w+)://`. */
  lemma FitShapes(rule: Rule, s: string, g: Groups)
    requires Fits(rule, s, g)
    ensures SchemeShape(s, g.start, g.schemeEnd)
    ensures rule != SchemeRule ==> NameShape(s, g.start, g.schemeEnd, g.nameEnd)
    ensures rule == PathRule ==> PathShape(s, g.start, g.schemeEnd, g.nameEnd, g.pathEnd)
  {
  }

  // ---------------------------------------------------------------------------
  // The matcher is the greedy regex match.

  /** `s[j..j+3] == "://"` puts a ':' right after the scheme, which ends every `\w` run there. */
  lemma SeparatorStopsScheme(s: string, j: int)
    requires HasAt(s, j, "://")
    ensures s[j] == ':' && s[j + 1] == '/' && s[j + 2] == '/'
  {
    assert s[j..j + 3][0] == s[j];
    assert s[j..j + 3][1] == s[j + 1];
    assert s[j..j + 3][2] == s[j + 2];
  }

  /** Rule 3 matches at `i` exactly when `(\w+)://` fits there, and its group is the whole word run. */
  lemma SchemeRuleIsRegex(s: string, i: nat, j: int)
    requires SchemeShape(s, i, j)
    ensures SchemeEnd(s, i) == Some(j)
    ensures MatchAt(SchemeRule, s, i) == Some(Groups(i, j, j + 3, j + 3))
  {
    SeparatorStopsScheme(s, j);
    RunEndAt(s, i, j, IsWordChar);
  }

  /** Rule 2 matches at `i` whenever the pattern fits there, and its name group is the greedy one. */
  lemma NameRuleIsGreedyRegex(s: string, i: nat, j: int, m: int)
    requires NameShape(s, i, j, m)
    ensures MatchAt(NameRule, s, i).Some?
    ensures var g := MatchAt(NameRule, s, i).value; g.schemeEnd == j && m <= g.nameEnd
  {
    SchemeRuleIsRegex(s, i, j);
    RunEndCovers(s, j + 3, m, IsNotSlash);
  }

  /**
   Rule 1 matches at `i` whenever the pattern fits there; scheme and name are
   then fixed by the fit, and the path group is the greedy (longest) one.
   */
  lemma PathRuleIsGreedyRegex(s: string, i: nat, j: int, m: int, e: int)
    requires PathShape(s, i, j, m, e)
    ensures MatchAt(PathRule, s, i).Some?
    ensures var g := MatchAt(PathRule, s, i).value; g.schemeEnd == j && g.nameEnd == m && e <= g.pathEnd
  {
    SchemeRuleIsRegex(s, i, j);
    RunEndAt(s, j + 3, m, IsNotSlash);
    RunEndCovers(s, m + 1, e, IsNotLineTerminator);
  }

  // ---------------------------------------------------------------------------
  // Parse against the regex semantics.

  /** A reported scheme comes from a fit of one of the rules, so `(\w+)://` occurs. */
  lemma SchemeFromParse(s: string)
    requires Parse(Some(s)).scheme.Some?
    ensures exists i, j :: SchemeShape(s, i, j)
  {
    var f1 := Find(PathRule, s, 0);
    var f2 := Find(NameRule, s, 0);
    if f1.Some? {
      FitShapes(PathRule, s, f1.value);
    } else if f2.Some? {
      FitShapes(NameRule, s, f2.value);
    } else {
      FitShapes(SchemeRule, s, Find(SchemeRule, s, 0).value);
    }
  }

  /** A scheme is reported iff `(\w+)://` occurs somewhere in the input. */
  lemma ParseSchemeIffSeparator(s: string)
    ensures Parse(Some(s)).scheme.Some? <==> exists i, j :: SchemeShape(s, i, j)
  {
    if Parse(Some(s)).scheme.Some? {
      SchemeFromParse(s);
    }
    if exists i, j :: SchemeShape(s, i, j) {
      var i, j :| SchemeShape(s, i, j);
      SchemeRuleIsRegex(s, i, j);
    }
  }

  /** A reported connection name comes from a fit of rule 1 or rule 2, so `(\w+)://([^/]+)` occurs. */
  lemma NameFromParse(s: string)
    requires Parse(Some(s)).connectionName.Some?
    ensures exists i, j, m :: NameShape(s, i, j, m)
  {
    var f1 := Find(PathRule, s, 0);
    if f1.Some? {
      FitShapes(PathRule, s, f1.value);
    } else {
      FitShapes(NameRule, s, Find(NameRule, s, 0).value);
    }
  }

  /** A connection name is reported iff `(\w+)://([^/]+)` occurs somewhere in the input. */
  lemma ParseNameIffNameShape(s: string)
    ensures Parse(Some(s)).connectionName.Some? <==> exists i, j, m :: NameShape(s, i, j, m)
  {
    if Parse(Some(s)).connectionName.Some? {
      NameFromParse(s);
    }
    if exists i, j, m :: NameShape(s, i, j, m) {
      var i, j, m :| NameShape(s, i, j, m);
      NameRuleIsGreedyRegex(s, i, j, m);
    }
  }

  /** A path is reported iff `(\w+)://([^/]+)(/.+)` occurs somewhere in the input. */
  lemma ParsePathIffPathShape(s: string)
    ensures Parse(Some(s)).pvfsPath.Some? <==> exists i, j, m, e :: PathShape(s, i, j, m, e)
  {
    var f1 := Find(PathRule, s, 0);
    if f1.Some? {
      FitShapes(PathRule, s, f1.value);
    }
    if exists i, j, m, e :: PathShape(s, i, j, m, e) {
      var i, j, m, e :| PathShape(s, i, j, m, e);
      PathRuleIsGreedyRegex(s, i, j, m, e);
    }
  }

  /** With no rule-1 fit anywhere, rule 1 finds nothing. */
  lemma NoPathMatch(s: string)
    requires forall i, j, m, e :: !PathShape(s, i, j, m, e)
    ensures Find(PathRule, s, 0).None?
  {
    var f := Find(PathRule, s, 0);
    if f.Some? {
      FitShapes(PathRule, s, f.value);
    }
  }

  /** With no rule-2 fit anywhere, rules 1 and 2 find nothing. */
  lemma NoNameMatch(s: string)
    requires forall i, j, m :: !NameShape(s, i, j, m)
    ensures Find(PathRule, s, 0).None? && Find(NameRule, s, 0).None?
  {
    var f1 := Find(PathRule, s, 0);
    if f1.Some? {
      FitShapes(PathRule, s, f1.value);
    }
    var f2 := Find(NameRule, s, 0);
    if f2.Some? {
      FitShapes(NameRule, s, f2.value);
    }
  }

  /**
   When rule 1 fits, Parse reports the leftmost fit: its scheme, its connection
   name, and a path that extends the fit's path as far as `.+` reaches.
   */
  lemma ParseTakesLeftmostPath(s: string, i: nat, j: int, m: int, e: int)
    requires PathShape(s, i, j, m, e)
    requires forall i', j', m', e' :: 0 <= i' < i ==> !PathShape(s, i', j', m', e')
    ensures var p := Parse(Some(s));
      p.scheme == Some(s[i..j]) && p.connectionName == Some(s[j + 3..m])
      && p.pvfsPath.Some? && m + |p.pvfsPath.value| <= |s|
      && p.pvfsPath.value == s[m..m + |p.pvfsPath.value|] && e <= m + |p.pvfsPath.value|
  {
    PathRuleIsGreedyRegex(s, i, j, m, e);
    forall i' | 0 <= i' < i
      ensures MatchAt(PathRule, s, i').None?
    {
      if MatchAt(PathRule, s, i').Some? {
        FitShapes(PathRule, s, MatchAt(PathRule, s, i').value);
      }
    }
    FindLeftmost(PathRule, s, i);
    var g := MatchAt(PathRule, s, i).value;
    FitShapes(PathRule, s, g);
    assert |s[m..g.pathEnd]| == g.pathEnd - m;
  }

  /**
   When rule 1 fits nowhere but rule 2 does, Parse reports the leftmost rule-2 fit
   with no path, and the name extends the fit's name up to the next `/`.
   */
  lemma ParseTakesLeftmostName(s: string, i: nat, j: int, m: int)
    requires NameShape(s, i, j, m)
    requires forall i', j', m', e' :: !PathShape(s, i', j', m', e')
    requires forall i', j', m' :: 0 <= i' < i ==> !NameShape(s, i', j', m')
    ensures var p := Parse(Some(s));
      p.scheme == Some(s[i..j]) && p.connectionName.Some? && p.pvfsPath.None?
      && j + 3 + |p.connectionName.value| <= |s|
      && p.connectionName.value == s[j + 3..j + 3 + |p.connectionName.value|]
      && m <= j + 3 + |p.connectionName.value|
  {
    NoPathMatch(s);
    NameRuleIsGreedyRegex(s, i, j, m);
    forall i' | 0 <= i' < i
      ensures MatchAt(NameRule, s, i').None?
    {
      if MatchAt(NameRule, s, i').Some? {
        FitShapes(NameRule, s, MatchAt(NameRule, s, i').value);
      }
    }
    FindLeftmost(NameRule, s, i);
    var g := MatchAt(NameRule, s, i).value;
    FitShapes(NameRule, s, g);
    assert |s[j + 3..g.nameEnd]| == g.nameEnd - j - 3;
  }

  /** When only rule 3 fits, Parse reports the leftmost scheme and nothing else. */
  lemma ParseTakesLeftmostScheme(s: string, i: nat, j: int)
    requires SchemeShape(s, i, j)
    requires forall i', j', m' :: !NameShape(s, i', j', m')
    requires forall i', j' :: 0 <= i' < i ==> !SchemeShape(s, i', j')
    ensures Parse(Some(s)) == ParsedUri(Some(s[i..j]), None, None)
  {
    NoNameMatch(s);
    SchemeRuleIsRegex(s, i, j);
    forall i' | 0 <= i' < i
      ensures MatchAt(SchemeRule, s, i').None?
    {
      if MatchAt(SchemeRule, s, i').Some? {
        FitShapes(SchemeRule, s, MatchAt(SchemeRule, s, i').value);
      }
    }
    FindLeftmost(SchemeRule, s, i);
  }

  // ---------------------------------------------------------------------------
  // Round trips: a URI assembled from its parts parses back into them.

  /**
   In `scheme + "://" + rest`, where `rest` starts with a non-slash character and
   holds no `//` at all, the separator occurs only right after the scheme.
   */
  lemma SeparatorOnlyAfterScheme(scheme: string, rest: string, j: int)
    requires IsWord(scheme) && (|rest| > 0 ==> rest[0] != '/')
    requires forall k :: 0 <= k < |rest| - 1 ==> !(rest[k] == '/' && rest[k + 1] == '/')
    requires HasAt(scheme + "://" + rest, j, "://")
    ensures j == |scheme|
  {
    var u := scheme + "://" + rest;
    var n := |scheme|;
    SeparatorStopsScheme(u, j);
    assert forall k :: 0 <= k < n ==> u[k] == scheme[k];
    assert forall k :: n + 3 <= k < |u| ==> u[k] == rest[k - n - 3];
    assert u[n] == ':' && u[n + 1] == '/' && u[n + 2] == '/';
    assert |rest| > 0 ==> u[n + 3] == rest[0];
  }

  /** The parts of `scheme://name/path` are a rule-1 fit at the start of the URI. */
  lemma PartsFitPathRule(scheme: string, name: string, path: string)
    requires IsWord(scheme) && |name| > 0 && NoSlash(name)
    requires |path| >= 2 && path[0] == '/' && NoLineTerminator(path)
    ensures var u := scheme + "://" + name + path;
      var j := |scheme|;
      var m := j + 3 + |name|;
      PathShape(u, 0, j, m, |u|) && u[..j] == scheme && u[j + 3..m] == name && u[m..] == path
  {
    var u := scheme + "://" + name + path;
    var j := |scheme|;
    var m := j + 3 + |name|;
    assert forall k :: 0 <= k < j ==> u[k] == scheme[k];
    assert forall k :: j + 3 <= k < m ==> u[k] == name[k - j - 3];
    assert forall k :: m <= k < |u| ==> u[k] == path[k - m];
    assert u[j..j + 3] == "://";
    assert u[..j] == scheme;
    assert u[j + 3..m] == name;
    assert u[m..] == path;
  }

  /**
   A URI `scheme://name/path`, where the name holds no `/` and the path starts
   with `/` and holds no line terminator, parses back into its three parts.
   */
  lemma ParseRoundTrip(scheme: string, name: string, path: string)
    requires IsWord(scheme) && |name| > 0 && NoSlash(name)
    requires |path| >= 2 && path[0] == '/' && NoLineTerminator(path)
    ensures Parse(Some(scheme + "://" + name + path)) == ParsedUri(Some(scheme), Some(name), Some(path))
  {
    var u := scheme + "://" + name + path;
    var m := |scheme| + 3 + |name|;
    PartsFitPathRule(scheme, name, path);
    ParseTakesLeftmostPath(u, 0, |scheme|, m, |u|);
    var p := Parse(Some(u));
    assert |p.pvfsPath.value| == |u| - m;
    assert p.pvfsPath.value == u[m..];
  }

  /** In `scheme://name` and `scheme://name/` no `(/.+)` can follow a name, since `://` occurs only once. */
  lemma NameOnlyHasNoPath(scheme: string, name: string, tail: string)
    requires IsWord(scheme) && |name| > 0 && NoSlash(name)
    requires tail == "" || tail == "/"
    ensures forall i, j, m, e :: !PathShape(scheme + "://" + name + tail, i, j, m, e)
  {
    var u := scheme + "://" + name + tail;
    var rest := name + tail;
    assert u == scheme + "://" + rest;
    assert forall k :: 0 <= k < |rest| - 1 ==> rest[k] == name[k];
    forall i, j, m, e
      ensures !PathShape(u, i, j, m, e)
    {
      if HasAt(u, j, "://") {
        SeparatorOnlyAfterScheme(scheme, rest, j);
      }
    }
  }

  /** `scheme://name` followed by anything is a rule-2 fit at the start, with the name as group 2. */
  lemma PartsFitNameRule(scheme: string, name: string, tail: string)
    requires IsWord(scheme) && |name| > 0 && NoSlash(name)
    ensures var u := scheme + "://" + name + tail;
      var j := |scheme|;
      var m := j + 3 + |name|;
      NameShape(u, 0, j, m) && u[..j] == scheme && u[j + 3..m] == name
  {
    var u := scheme + "://" + name + tail;
    var j := |scheme|;
    var m := j + 3 + |name|;
    assert forall k :: 0 <= k < j ==> u[k] == scheme[k];
    assert forall k :: j + 3 <= k < m ==> u[k] == name[k - j - 3];
    assert u[j..j + 3] == "://";
    assert u[..j] == scheme;
    assert u[j + 3..m] == name;
  }

  /** `scheme://name` and `scheme://name/` parse into scheme and name, with no path. */
  lemma ParseNameOnly(scheme: string, name: string, tail: string)
    requires IsWord(scheme) && |name| > 0 && NoSlash(name)
    requires tail == "" || tail == "/"
    ensures Parse(Some(scheme + "://" + name + tail)) == ParsedUri(Some(scheme), Some(name), None)
  {
    var u := scheme + "://" + name + tail;
    var m := |scheme| + 3 + |name|;
    NameOnlyHasNoPath(scheme, name, tail);
    PartsFitNameRule(scheme, name, tail);
    ParseTakesLeftmostName(u, 0, |scheme|, m);
    assert tail == "/" ==> u[m] == '/';
  }

  /** `scheme://` and `scheme:///` parse into the scheme alone: no name can start at a `/`. */
  lemma ParseSchemeOnly(scheme: string, tail: string)
    requires IsWord(scheme)
    requires tail == "" || tail == "/"
    ensures Parse(Some(scheme + "://" + tail)) == ParsedUri(Some(scheme), None, None)
  {
    var u := scheme + "://" + tail;
    var n := |scheme|;
    assert forall k :: 0 <= k < n ==> u[k] == scheme[k];
    assert u[n] == ':' && u[n + 1] == '/' && u[n + 2] == '/';
    assert tail == "/" ==> u[n + 3] == '/';
    forall i, j, m
      ensures !NameShape(u, i, j, m)
    {
      if HasAt(u, j, "://") {
        SeparatorStopsScheme(u, j);
        assert j == n;
      }
    }
    assert u[..n] == scheme;
    assert SchemeShape(u, 0, n);
    ParseTakesLeftmostScheme(u, 0, n);
  }

  /** Without `://` there is nothing to report. */
  lemma ParseWithoutSeparator(s: string)
    requires forall j :: !HasAt(s, j, "://")
    ensures Parse(Some(s)) == ParsedUri(None, None, None)
  {
    ParseSchemeIffSeparator(s);
  }

  /**
   `scheme://name/rest` yields that scheme and name whenever `rest` is empty or
   does not start with a line terminator: rule 1 then fits at the very start, or,
   for an empty `rest`, rule 2 does. Only the path depends on the rest of `rest`.
   */
  lemma ParseNameBeforeRest(scheme: string, name: string, rest: string)
    requires IsWord(scheme) && |name| > 0 && NoSlash(name) && StartsPlain(rest)
    ensures var p := Parse(Some(scheme + "://" + name + "/" + rest));
      p.scheme == Some(scheme) && p.connectionName == Some(name)
  {
    if rest == "" {
      assert scheme + "://" + name + "/" + rest == scheme + "://" + name + "/";
      ParseNameOnly(scheme, name, "/");
    } else {
      var u := scheme + "://" + name + "/" + rest;
      var j := |scheme|;
      var m := j + 3 + |name|;
      ConcatAssoc(scheme + "://" + name, "/", rest);
      PartsFitNameRule(scheme, name, "/" + rest);
      assert u[m] == '/' && u[m + 1] == rest[0];
      assert PathShape(u, 0, j, m, m + 2);
      ParseTakesLeftmostPath(u, 0, j, m, m + 2);
    }
  }

  /**
   `scheme://name/rest` parses back into scheme and name, with path `/rest`, or
   with no path when `rest` is empty: the URI can be rebuilt from what Parse reports.
   */
  lemma ParseNameAndRest(scheme: string, name: string, rest: string)
    requires IsWord(scheme) && |name| > 0 && NoSlash(name) && NoLineTerminator(rest)
    ensures Parse(Some(scheme + "://" + name + "/" + rest))
      == ParsedUri(Some(scheme), Some(name), if rest == "" then None else Some("/" + rest))
  {
    var u := scheme + "://" + name + "/" + rest;
    if rest == "" {
      assert u == scheme + "://" + name + "/";
      ParseNameOnly(scheme, name, "/");
    } else {
      var path := "/" + rest;
      assert forall k :: 1 <= k < |path| ==> path[k] == rest[k - 1];
      assert u == scheme + "://" + name + path;
      ParseRoundTrip(scheme, name, path);
    }
  }
}

=== FILE: connection_uri_parser_examples.dfy ===
/**
 The cases of the parser's unit test, as consequences of the round-trip lemmas.
 Each test URI is written as the concatenation of its scheme, `://`, its name
 and its path, which is the same string; each fact about a literal is a lemma
 of its own, which keeps every proof small.
 */
module ConnectionUriParserExamples {
  import opened Core
  import opened Text
  import opened ConnectionUriParser

  /** Test URIs `xyz://abc` and `xyz://abc/`: scheme and name, no path. */
  lemma ParserExampleShortName()
    ensures Parse(Some("xyz" + "://" + "abc")) == ParsedUri(Some("xyz"), Some("abc"), None)
    ensures Parse(Some("xyz" + "://" + "abc" + "/")) == ParsedUri(Some("xyz"), Some("abc"), None)
  {
    ParseNameOnly("xyz", "abc", "");
    assert "xyz" + "://" + "abc" + "" == "xyz" + "://" + "abc";
    ParseNameOnly("xyz", "abc", "/");
  }

  /** A bare scheme, with or without a slash after the separator, yields the scheme alone. */
  lemma ParserExampleSchemeOnly()
    ensures Parse(Some("xyz" + "://")) == ParsedUri(Some("xyz"), None, None)
    ensures Parse(Some("xyz" + "://" + "/")) == ParsedUri(Some("xyz"), None, None)
  {
    ParseSchemeOnly("xyz", "");
    assert "xyz" + "://" + "" == "xyz" + "://";
    ParseSchemeOnly("xyz", "/");
  }

  lemma SomeFilePathIsPath()
    ensures NoLineTerminator("/someDir/somePath/someFile.txt")
  {
  }

  /** Test URI `xyz://abc/someDir/somePath/someFile.txt`: all three parts. */
  lemma ParserExampleWithPath()
    ensures Parse(Some("xyz" + "://" + "abc" + "/someDir/somePath/someFile.txt"))
      == ParsedUri(Some("xyz"), Some("abc"), Some("/someDir/somePath/someFile.txt"))
  {
    SomeFilePathIsPath();
    ParseRoundTrip("xyz", "abc", "/someDir/somePath/someFile.txt");
  }

  /** The connection name of the test URIs with `-`, `_` and digits. */
  const DashedName: string := "some-ConnectionName_123"

  lemma DashedNameIsName()
    ensures NoSlash(DashedName)
  {
  }

  /** Test URIs with a name holding `-` and `_`, with and without the trailing `/`. */
  lemma ParserExampleDashedName()
    ensures Parse(Some("pvfs" + "://" + DashedName + "/")) == ParsedUri(Some("pvfs"), Some(DashedName), None)
    ensures Parse(Some("pvfs" + "://" + DashedName)) == ParsedUri(Some("pvfs"), Some(DashedName), None)
  {
    DashedNameIsName();
    ParseNameOnly("pvfs", DashedName, "/");
    ParseNameOnly("pvfs", DashedName, "");
    assert "pvfs" + "://" + DashedName + "" == "pvfs" + "://" + DashedName;
  }

  /** The connection name of the test URIs that hold spaces and punctuation. */
  const SpecialName: string := "Special Character name &#!" + " <> why would you do this"

  /** The path of the last three test URIs. */
  const SalesPath: string := "/someFolderA/someFolderB/" + "someFolderC/sales_data.csv"

  lemma SpecialNameHalvesAreNames()
    ensures NoSlash("Special Character name &#!") && NoSlash(" <> why would you do this")
  {
  }

  /** The special name holds no `/`, so it is a whole connection name. */
  lemma SpecialNameIsName()
    ensures NoSlash(SpecialName)
  {
    SpecialNameHalvesAreNames();
    NoSlashConcat("Special Character name &#!", " <> why would you do this");
  }

  lemma SalesPathHalvesArePaths()
    ensures NoLineTerminator("/someFolderA/someFolderB/") && NoLineTerminator("someFolderC/sales_data.csv")
  {
  }

  /** The sales path starts with `/` and holds no line terminator, so it is a whole path. */
  lemma SalesPathIsPath()
    ensures |SalesPath| >= 2 && SalesPath[0] == '/' && NoLineTerminator(SalesPath)
  {
    SalesPathHalvesArePaths();
    NoLineTerminatorConcat("/someFolderA/someFolderB/", "someFolderC/sales_data.csv");
    assert SalesPath[0] == "/someFolderA/someFolderB/"[0];
  }

  /** Test URI with a dashed name and a four-segment path. */
  lemma ParserExampleSalesData()
    ensures Parse(Some("pvfs" + "://" + DashedName + SalesPath))
      == ParsedUri(Some("pvfs"), Some(DashedName), Some(SalesPath))
  {
    DashedNameIsName();
    SalesPathIsPath();
    ParseRoundTrip("pvfs", DashedName, SalesPath);
  }

  /** Test URI whose connection name holds spaces and punctuation, followed by a path. */
  lemma ParserExampleSpecialCharacters()
    ensures Parse(Some("pvfs" + "://" + SpecialName + SalesPath)) == ParsedUri(Some("pvfs"), Some(SpecialName), Some(SalesPath))
  {
    SpecialNameIsName();
    SalesPathIsPath();
    ParseRoundTrip("pvfs", SpecialName, SalesPath);
  }

  /** The same connection name alone: the name is passed on as it is. */
  lemma ParserExampleSpecialName()
    ensures Parse(Some("pvfs" + "://" + SpecialName)) == ParsedUri(Some("pvfs"), Some(SpecialName), None)
  {
    SpecialNameIsName();
    ParseNameOnly("pvfs", SpecialName, "");
    assert "pvfs" + "://" + SpecialName + "" == "pvfs" + "://" + SpecialName;
  }
}

=== FILE: core.dfy ===
/**
 Values shared by every part of the model: optional values for Java's `null`,
 results for calls that may throw, and the exceptions the modelled code raises
 or passes on.
 */
module Core {

  /** A Java reference that may be `null`. */
  datatype Option<+T> = None | Some(value: T)

  /** The exceptions the modelled code raises, wraps or lets through. */
  datatype Failure =
    | NullPointer                                      // NullPointerException
    | ClassCast                                        // ClassCastException from a failed cast
    | NotImplemented                                   // commons-lang3 NotImplementedException
    | Runtime(cause: Failure)                          // RuntimeException wrapping a checked cause
    | FileSystemError(code: string, origin: Option<Failure>) // FileSystemException, with its cause if any
    | FileNotFound(path: string, provider: string)     // the file-open-save FileNotFoundException
    | FileError(message: string, reason: Failure)       // the file-open-save FileException

  /** The outcome of a call that returns a value or throws. */
  datatype Result<+T> = Success(value: T) | Failure(error: Failure) {

    predicate IsFailure() {
      Failure?
    }

    function PropagateFailure<U>(): Result<U>
      requires Failure?
    {
      Failure(error)
    }

    function Extract(): T
      requires Success?
    {
      value
    }
  }

  /** The outcome of a call that returns nothing or throws. */
  datatype Outcome = Pass | Fail(error: Failure)

  /** A Kettle variable space, read through `getVariable`: variable name to value. */
  type Vars = map<string, string>
}

=== FILE: file_system_cache.dfy ===
/**
 The filesystem cache of an Apache VFS provider, seen from the pvfs side: a
 provider keeps one filesystem per (root URI, FileSystemOptions) and hands it
 back when asked again for an equal key. Kettle puts its variable space into
 the options, and the same variable values reach the cache through two kinds
 of container: a plain `Variables` object or a job entry that is itself a
 variable space. The policy modelled here is the one the cache scenarios of
 the copy-files job entry demand: option sets are compared by VALUE, and a
 variable space by the variables it holds, never by which object holds them.
 The library's own comparison is modelled alongside, to show what that policy
 changes: it compares the values' hash codes, so a plain `Variables` object
 matches only itself, and a job entry matches any job entry of the same name.
 */
module FileSystemCache {
  import opened Core

  /** A Kettle variable space as it can appear in a FileSystemOptions value. */
  datatype VariableSpace =
    | Variables(id: nat, vars: Vars)
    | JobEntry(id: nat, name: string, sources: seq<string>, destinations: seq<string>,
               configuration: map<string, string>, variablesId: nat, vars: Vars)
  {
    /** `getVariable(key)`: both containers answer from the variables they hold. */
    function GetVariable(key: string): Option<string> {
      if key in vars then Some(vars[key]) else None
    }

    /** `getVariables()` of a job entry: the `Variables` object that backs it. */
    function GetVariables(): (r: VariableSpace)
      ensures r.Variables? && r.vars == vars
      ensures Variables? ==> r == this
    {
      match this
      case Variables(_, _) => this
      case JobEntry(_, _, _, _, _, inner, v) => Variables(inner, v)
    }
  }

  /** A value set with `FileSystemConfigBuilder.setParam`. */
  datatype OptionValue =
    | BoolValue(b: bool)
    | StrValue(s: string)
    | IntValue(i: int)
    | SpaceValue(space: VariableSpace)

  /** FileSystemOptions: parameter name to value. */
  type Options = map<string, OptionValue>

  /** Two option values are interchangeable: equal scalars, or spaces holding the same variables. */
  predicate SameValue(x: OptionValue, y: OptionValue) {
    match x
    case BoolValue(b) => y.BoolValue? && y.b == b
    case StrValue(s) => y.StrValue? && y.s == s
    case IntValue(i) => y.IntValue? && y.i == i
    case SpaceValue(sp) => y.SpaceValue? && y.space.vars == sp.vars
  }

  /** Two option sets are interchangeable: the same names, each with interchangeable values. */
  predicate SameValues(a: Options, b: Options) {
    a.Keys == b.Keys && forall k :: k in a ==> SameValue(a[k], b[k])
  }

  /** An option value with the identity of its container dropped. */
  datatype CanonicalValue =
    | CanonicalBool(b: bool)
    | CanonicalStr(s: string)
    | CanonicalInt(i: int)
    | CanonicalSpace(vars: Vars)

  function Canonical(x: OptionValue): CanonicalValue {
    match x
    case BoolValue(b) => CanonicalBool(b)
    case StrValue(s) => CanonicalStr(s)
    case IntValue(i) => CanonicalInt(i)
    case SpaceValue(sp) => CanonicalSpace(sp.vars)
  }

  /** Equal canonical forms are exactly interchangeable values. */
  lemma CanonicalIffSameValue(x: OptionValue, y: OptionValue)
    ensures Canonical(x) == Canonical(y) <==> SameValue(x, y)
  {
  }

  /** The options as the cache key keeps them. */
  function CanonicalOptions(o: Options): (c: map<string, CanonicalValue>)
    ensures c.Keys == o.Keys
    ensures forall k :: k in o ==> c[k] == Canonical(o[k])
  {
    map k | k in o :: Canonical(o[k])
  }

  /** `compareTo` answers 0: the two option sets select the same cached filesystem. */
  predicate Equivalent(a: Options, b: Options) {
    CanonicalOptions(a) == CanonicalOptions(b)
  }

  /** The cache-key comparison is the value comparison, in both directions. */
  lemma EquivalentIffSameValues(a: Options, b: Options)
    ensures Equivalent(a, b) <==> SameValues(a, b)
  {
    var ca, cb := CanonicalOptions(a), CanonicalOptions(b);
    if Equivalent(a, b) {
      forall k | k in a
        ensures SameValue(a[k], b[k])
      {
        assert ca[k] == cb[k];
        CanonicalIffSameValue(a[k], b[k]);
      }
    }
    if SameValues(a, b) {
      forall k | k in ca
        ensures ca[k] == cb[k]
      {
        CanonicalIffSameValue(a[k], b[k]);
      }
      assert ca == cb;
    }
  }

  /** The key comparison is an equivalence relation, as a sorted-map key must be. */
  lemma EquivalentIsEquivalence(a: Options, b: Options, c: Options)
    ensures Equivalent(a, a)
    ensures Equivalent(a, b) ==> Equivalent(b, a)
    ensures Equivalent(a, b) && Equivalent(b, c) ==> Equivalent(a, c)
  {
  }

  /**
   `getBoolean`, `getString`, `getInteger` with a null default: the stored
   value is cast to the getter's type, so a value of another type fails the
   cast, and an absent parameter reads as null.
   */
  function GetBoolean(o: Options, name: string): (r: Result<Option<bool>>)
    ensures name !in o ==> r == Success(None)
    ensures name in o && !o[name].BoolValue? ==> r == Failure(ClassCast)
    ensures r.Success? <==> name !in o || o[name].BoolValue?
    ensures r.Success? && r.value.Some? ==> name in o && r.value.value == o[name].b
    ensures name in o && o[name].BoolValue? ==> r.Success? && r.value.Some?
  {
    if name !in o then Success(None)
    else if !o[name].BoolValue? then Failure(ClassCast)
    else Success(Some(o[name].b))
  }

  function GetString(o: Options, name: string): (r: Result<Option<string>>)
    ensures name !in o ==> r == Success(None)
    ensures name in o && !o[name].StrValue? ==> r == Failure(ClassCast)
    ensures r.Success? <==> name !in o || o[name].StrValue?
    ensures r.Success? && r.value.Some? ==> name in o && r.value.value == o[name].s
    ensures name in o && o[name].StrValue? ==> r.Success? && r.value.Some?
  {
    if name !in o then Success(None)
    else if !o[name].StrValue? then Failure(ClassCast)
    else Success(Some(o[name].s))
  }

  function GetInteger(o: Options, name: string): (r: Result<Option<int>>)
    ensures name !in o ==> r == Success(None)
    ensures name in o && !o[name].IntValue? ==> r == Failure(ClassCast)
    ensures r.Success? <==> name !in o || o[name].IntValue?
    ensures r.Success? && r.value.Some? ==> name in o && r.value.value == o[name].i
    ensures name in o && o[name].IntValue? ==> r.Success? && r.value.Some?
  {
    if name !in o then Success(None)
    else if !o[name].IntValue? then Failure(ClassCast)
    else Success(Some(o[name].i))
  }

  /** `hasParam`. */
  predicate HasParam(o: Options, name: string) {
    name in o
  }

  /**
   `getParam(name)` assigned to a VariableSpace, then `getVariable(key)`: a
   missing parameter is a null reference to dereference, and a parameter of
   another type fails the cast.
   */
  function GetSpaceVariable(o: Options, name: string, key: string): (r: Result<Option<string>>)
    ensures name !in o ==> r == Failure(NullPointer)
    ensures name in o && !o[name].SpaceValue? ==> r == Failure(ClassCast)
    ensures r.Success? <==> name in o && o[name].SpaceValue?
    ensures r.Success? ==> (r.value.Some? <==> key in o[name].space.vars)
    ensures r.Success? && r.value.Some? ==> r.value.value == o[name].space.vars[key]
  {
    if name !in o then Failure(NullPointer)
    else if !o[name].SpaceValue? then Failure(ClassCast)
    else Success(o[name].space.GetVariable(key))
  }

  /** Equivalent option sets answer every typed read alike. */
  lemma EquivalentReadsAgree(a: Options, b: Options, name: string, key: string)
    requires Equivalent(a, b)
    ensures GetBoolean(a, name) == GetBoolean(b, name)
    ensures GetString(a, name) == GetString(b, name)
    ensures GetInteger(a, name) == GetInteger(b, name)
    ensures HasParam(a, name) == HasParam(b, name)
    ensures GetSpaceVariable(a, name, key) == GetSpaceVariable(b, name, key)
  {
    EquivalentIffSameValues(a, b);
  }

  /** A filesystem built for a root URI with the options it was created from. */
  datatype FileSystem = FileSystem(rootUri: string, options: Options)

  /** `FileSystemKey`: the root URI with the canonical options. */
  datatype Key = Key(rootUri: string, options: map<string, CanonicalValue>)

  function KeyOf(rootUri: string, o: Options): Key {
    Key(rootUri, CanonicalOptions(o))
  }

  /** The provider's `fileSystemMap`. */
  type Cache = map<Key, FileSystem>

  /** `addFileSystem(key, fs)`: files `fs` under the URI and the options `fs` was built with. */
  function AddFileSystem(cache: Cache, rootUri: string, fs: FileSystem): (r: Cache)
    ensures r.Keys == cache.Keys + {KeyOf(rootUri, fs.options)}
    ensures r[KeyOf(rootUri, fs.options)] == fs
    ensures forall k :: k in cache && k != KeyOf(rootUri, fs.options) ==> r[k] == cache[k]
  {
    cache[KeyOf(rootUri, fs.options) := fs]
  }

  /** `findFileSystem(key, options)`: the filesystem filed under an equivalent key, or null. */
  function FindFileSystem(cache: Cache, rootUri: string, o: Options): (r: Option<FileSystem>)
    ensures r.Some? <==> exists k :: k in cache && k.rootUri == rootUri && k.options == CanonicalOptions(o)
    ensures r.Some? ==> KeyOf(rootUri, o) in cache && r.value == cache[KeyOf(rootUri, o)]
  {
    var k := KeyOf(rootUri, o);
    if k in cache then Some(cache[k]) else None
  }

  /**
   After filing `fs`, a lookup under the same URI finds `fs` exactly when its
   options are equivalent to those `fs` was built with; any other lookup
   answers as before.
   */
  lemma FindAfterAdd(cache: Cache, rootUri: string, fs: FileSystem, uri: string, o: Options)
    ensures uri == rootUri && SameValues(o, fs.options) ==>
      FindFileSystem(AddFileSystem(cache, rootUri, fs), uri, o) == Some(fs)
    ensures !(uri == rootUri && SameValues(o, fs.options)) ==>
      FindFileSystem(AddFileSystem(cache, rootUri, fs), uri, o) == FindFileSystem(cache, uri, o)
  {
    EquivalentIffSameValues(o, fs.options);
  }

  /**
   `getFileSystem`: the cached filesystem for an equivalent key, or a new one
   from `create` that is then filed. `create` stands for `doCreateFileSystem`.
   */
  function GetFileSystem(cache: Cache, rootUri: string, o: Options,
                         create: (string, Options) -> FileSystem): (r: (FileSystem, Cache))
    requires forall u, p :: create(u, p).options == p
    ensures FindFileSystem(cache, rootUri, o).Some? ==> r == (FindFileSystem(cache, rootUri, o).value, cache)
    ensures FindFileSystem(cache, rootUri, o).None? ==>
      r.0 == create(rootUri, o) && r.1.Keys == cache.Keys + {KeyOf(rootUri, o)}
    ensures FindFileSystem(r.1, rootUri, o) == Some(r.0)
  {
    match FindFileSystem(cache, rootUri, o)
    case Some(fs) => (fs, cache)
    case None =>
      var fs := create(rootUri, o);
      (fs, AddFileSystem(cache, rootUri, fs))
  }

  /**
   The fix the scenarios ask for: once a filesystem is cached, asking again
   with value-equal options returns it and the map does not grow.
   */
  lemma {:induction false} RepeatedRequestDoesNotGrow(cache: Cache, rootUri: string, a: Options, b: Options,
                                                     create: (string, Options) -> FileSystem)
    requires forall u, p :: create(u, p).options == p
    requires SameValues(a, b)
    ensures var (fs, c1) := GetFileSystem(cache, rootUri, a, create);
            GetFileSystem(c1, rootUri, b, create) == (fs, c1)
  {
    EquivalentIffSameValues(a, b);
    var (fs, c1) := GetFileSystem(cache, rootUri, a, create);
    assert KeyOf(rootUri, b) == KeyOf(rootUri, a);
    assert FindFileSystem(c1, rootUri, b) == FindFileSystem(c1, rootUri, a);
  }

  /**
   The comparison the library makes: `compareTo` compares the hash codes of the
   option values. Scalars hash by value. `Variables` keeps `Object.hashCode`, so
   it matches only the same object; a job entry hashes by its name alone, so it
   matches any job entry of that name. Hash collisions between unrelated values
   are not modelled.
   */
  predicate SameHash(x: OptionValue, y: OptionValue) {
    match x
    case SpaceValue(sp) =>
      y.SpaceValue? && y.space.Variables? == sp.Variables?
      && (if sp.Variables? then y.space.id == sp.id else y.space.name == sp.name)
    case _ => x == y
  }

  predicate LibraryEquivalent(a: Options, b: Options) {
    a.Keys == b.Keys && forall k :: k in a ==> SameHash(a[k], b[k])
  }

  /**
   For options whose spaces are all plain `Variables`, the library's comparison
   is finer than the value comparison, when one object holds one set of variables.
   */
  lemma LibraryIsFinerForVariables(a: Options, b: Options)
    requires forall k :: k in a && a[k].SpaceValue? ==> a[k].space.Variables?
    requires forall k, l :: k in a && l in b && a[k].SpaceValue? && b[l].SpaceValue?
               && a[k].space.id == b[l].space.id && b[l].space.Variables?
               ==> a[k].space.vars == b[l].space.vars
    ensures LibraryEquivalent(a, b) ==> SameValues(a, b)
  {
  }

  /** A plain `Variables` and a distinct container with the same variables: value-equal, yet the library tells them apart. */
  lemma LibraryMissesDistinctContainers(x: VariableSpace, y: VariableSpace)
    requires x.Variables? && x.vars == y.vars && (y.Variables? ==> x.id != y.id)
    ensures SameValue(SpaceValue(x), SpaceValue(y))
    ensures !SameHash(SpaceValue(x), SpaceValue(y))
    ensures !SameHash(SpaceValue(y), SpaceValue(x))
  {
  }

  /** Two job entries of the same name: the library takes one for the other, whatever variables they hold. */
  lemma LibraryConfusesSameNamedEntries(x: VariableSpace, y: VariableSpace)
    requires x.JobEntry? && y.JobEntry? && x.name == y.name
    ensures SameHash(SpaceValue(x), SpaceValue(y))
    ensures SameValue(SpaceValue(x), SpaceValue(y)) <==> x.vars == y.vars
  {
  }
}

=== FILE: file_system_cache_examples.dfy ===
/**
 The cache scenarios of the copy-files job entry, instantiated: every option
 set carries the same three scalars and a variable space under
 `key4_variableObj`; only the container and the access-key variable vary.
 */
module FileSystemCacheExamples {
  import opened Core
  import opened FileSystemCache

  const PocKey := "input_access_key"
  const AccessId := "<super_secret_access_key_id>"
  const UpdatedAccessId := "<UPDATED_IN_THE_FUTURE_ACCESS_KEY_ID>"
  const JobName := "pocJobEntryCopyFiles"
  const SourceUri := "pvfs://someConn/somePath/AnotherDir/randomFile.txt"
  const DestinationUri := "pvfs://someConn/somePath/extraFolder/superSecretFile.csv"
  const OtherUri := "pvfs://DIFFERENT_CONNECTION/super_secret_path/hidden_folder/revenue.xlsx"
  const Configuration := map["config_1" := "featureA", "config_2" := "featureB"]

  /** The option set every scenario builds around a variable space. */
  function TestOptions(space: VariableSpace): (o: Options)
    ensures o.Keys == {"key1", "key2", "key3", "key4_variableObj"}
    ensures GetBoolean(o, "key1") == Success(Some(false))
    ensures GetString(o, "key2") == Success(Some("test_string_value"))
    ensures GetInteger(o, "key3") == Success(Some(349))
    ensures HasParam(o, "key4_variableObj") && o["key4_variableObj"] == SpaceValue(space)
  {
    map["key1" := BoolValue(false), "key2" := StrValue("test_string_value"),
        "key3" := IntValue(349), "key4_variableObj" := SpaceValue(space)]
  }

  /** Options built around two spaces with the same variables are interchangeable. */
  lemma TestOptionsAgree(x: VariableSpace, y: VariableSpace)
    requires x.vars == y.vars
    ensures SameValues(TestOptions(x), TestOptions(y))
  {
    var a, b := TestOptions(x), TestOptions(y);
    forall k | k in a
      ensures SameValue(a[k], b[k])
    {
      assert k == "key1" || k == "key2" || k == "key3" || k == "key4_variableObj";
    }
  }

  /** Scenario 1a: a job entry's options find the filesystem cached for a plain `Variables`. */
  lemma Scenario1aJobEntryFindsVariables(entryId: nat, innerId: nat, variablesId: nat)
    ensures var entry := JobEntry(entryId, JobName, [], [], map[], innerId, map[PocKey := AccessId]);
            var variables := Variables(variablesId, map[PocKey := AccessId]);
            var fs := FileSystem(SourceUri, TestOptions(variables));
            FindFileSystem(AddFileSystem(map[], SourceUri, fs), SourceUri, TestOptions(entry)) == Some(fs)
  {
    var entry := JobEntry(entryId, JobName, [], [], map[], innerId, map[PocKey := AccessId]);
    var variables := Variables(variablesId, map[PocKey := AccessId]);
    var fs := FileSystem(SourceUri, TestOptions(variables));
    TestOptionsAgree(entry, variables);
    FindAfterAdd(map[], SourceUri, fs, SourceUri, TestOptions(entry));
  }

  /** Scenario 1b: a job entry's options find the filesystem cached for that entry's own `getVariables()`. */
  lemma Scenario1bJobEntryFindsItsVariables(entry: VariableSpace)
    requires entry.JobEntry?
    ensures var fs := FileSystem(SourceUri, TestOptions(entry.GetVariables()));
            FindFileSystem(AddFileSystem(map[], SourceUri, fs), SourceUri, TestOptions(entry)) == Some(fs)
  {
    var fs := FileSystem(SourceUri, TestOptions(entry.GetVariables()));
    TestOptionsAgree(entry, entry.GetVariables());
    FindAfterAdd(map[], SourceUri, fs, SourceUri, TestOptions(entry));
  }

  /** Scenario 2: two distinct `Variables` objects with the same values select the same filesystem. */
  lemma Scenario2VariablesFindVariables(id1: nat, id2: nat)
    ensures var fs := FileSystem(SourceUri, TestOptions(Variables(id1, map[PocKey := AccessId])));
            FindFileSystem(AddFileSystem(map[], SourceUri, fs), SourceUri,
                           TestOptions(Variables(id2, map[PocKey := AccessId]))) == Some(fs)
  {
    var v1, v2 := Variables(id1, map[PocKey := AccessId]), Variables(id2, map[PocKey := AccessId]);
    var fs := FileSystem(SourceUri, TestOptions(v1));
    TestOptionsAgree(v2, v1);
    FindAfterAdd(map[], SourceUri, fs, SourceUri, TestOptions(v2));
  }

  lemma AccessIdsDiffer()
    ensures AccessId != UpdatedAccessId
  {
    assert AccessId[1] != UpdatedAccessId[1];
  }

  /**
   Scenario 3: two job entries with the same name but a different access-key
   value miss, so the provider would build a new filesystem.
   */
  lemma Scenario3DifferentValueMisses(id1: nat, inner1: nat, id2: nat, inner2: nat)
    ensures var entry := JobEntry(id1, JobName, [SourceUri], [DestinationUri], Configuration,
                                  inner1, map[PocKey := AccessId]);
            var other := JobEntry(id2, JobName, [OtherUri], [OtherUri], Configuration,
                                  inner2, map[PocKey := UpdatedAccessId]);
            var fs := FileSystem(SourceUri, TestOptions(entry));
            FindFileSystem(AddFileSystem(map[], SourceUri, fs), SourceUri, TestOptions(other)).None?
  {
    var entry := JobEntry(id1, JobName, [SourceUri], [DestinationUri], Configuration,
                          inner1, map[PocKey := AccessId]);
    var other := JobEntry(id2, JobName, [OtherUri], [OtherUri], Configuration,
                          inner2, map[PocKey := UpdatedAccessId]);
    var fs := FileSystem(SourceUri, TestOptions(entry));
    AccessIdsDiffer();
    assert other.vars[PocKey] != entry.vars[PocKey];
    assert !SameValue(TestOptions(other)["key4_variableObj"], TestOptions(entry)["key4_variableObj"]);
    FindAfterAdd(map[], SourceUri, fs, SourceUri, TestOptions(other));
  }

  /**
   Scenario 3 under the library's comparison: the job entries share a name, so
   their options hash alike and the lookup takes the filesystem built with the
   other access key, though the values differ.
   */
  lemma Scenario3LibraryTakesTheOtherEntry(id1: nat, inner1: nat, id2: nat, inner2: nat)
    ensures var entry := JobEntry(id1, JobName, [SourceUri], [DestinationUri], Configuration,
                                  inner1, map[PocKey := AccessId]);
            var other := JobEntry(id2, JobName, [OtherUri], [OtherUri], Configuration,
                                  inner2, map[PocKey := UpdatedAccessId]);
            LibraryEquivalent(TestOptions(other), TestOptions(entry))
            && !Equivalent(TestOptions(other), TestOptions(entry))
  {
    var entry := JobEntry(id1, JobName, [SourceUri], [DestinationUri], Configuration,
                          inner1, map[PocKey := AccessId]);
    var other := JobEntry(id2, JobName, [OtherUri], [OtherUri], Configuration,
                          inner2, map[PocKey := UpdatedAccessId]);
    var a, b := TestOptions(other), TestOptions(entry);
    LibraryConfusesSameNamedEntries(other, entry);
    forall k | k in a
      ensures SameHash(a[k], b[k])
    {
      assert k == "key1" || k == "key2" || k == "key3" || k == "key4_variableObj";
    }
    AccessIdsDiffer();
    assert other.vars[PocKey] != entry.vars[PocKey];
    assert !SameValue(a["key4_variableObj"], b["key4_variableObj"]);
    EquivalentIffSameValues(a, b);
  }

  /**
   Assumption tests 5 and 6: options built around a job entry and around a
   `Variables` object with the same access key compare equal, and every read of
   `key1` to `key4_variableObj` agrees between them.
   */
  lemma JobEntryAndVariablesReadAlike(entry: VariableSpace, variables: VariableSpace)
    requires entry.JobEntry? && variables.Variables?
    requires entry.vars == map[PocKey := AccessId] && variables.vars == map[PocKey := AccessId]
    ensures Equivalent(TestOptions(entry), TestOptions(variables))
    ensures GetBoolean(TestOptions(entry), "key1") == GetBoolean(TestOptions(variables), "key1")
    ensures GetString(TestOptions(entry), "key2") == GetString(TestOptions(variables), "key2")
    ensures GetInteger(TestOptions(entry), "key3") == GetInteger(TestOptions(variables), "key3")
    ensures HasParam(TestOptions(entry), "key4_variableObj") && HasParam(TestOptions(variables), "key4_variableObj")
    ensures GetSpaceVariable(TestOptions(entry), "key4_variableObj", PocKey) == Success(Some(AccessId))
    ensures GetSpaceVariable(TestOptions(variables), "key4_variableObj", PocKey) == Success(Some(AccessId))
  {
    var a, b := TestOptions(entry), TestOptions(variables);
    TestOptionsAgree(entry, variables);
    EquivalentIffSameValues(a, b);
    EquivalentReadsAgree(a, b, "key1", PocKey);
    EquivalentReadsAgree(a, b, "key2", PocKey);
    EquivalentReadsAgree(a, b, "key3", PocKey);
  }
}

=== FILE: native_vfs.dfy ===
/**
 The native (provider) side of a named connection, as the pvfs layer observes
 it. Apache VFS, KettleVFS and the connection's own provider are outside the
 model; what the layer asks of them is gathered here as plain values and as a
 driver record of functions that the caller supplies.
 */
module NativeVfs {
  import opened Core

  /**
   The name of a native file. Providers whose names carry a host (Google Cloud
   Storage, for one) hand out a `URLFileName`; others (S3, for one) do not.
   */
  datatype NativeName =
    | UrlName(hostName: string, path: string)
    | PathName(path: string)

  /**
   A native file object: its name, the host of `getURL()` (a failure stands for
   the FileSystemException `getURL` may throw), and `getPublicURIString()`.
   */
  datatype Handle = Handle(name: NativeName, urlHost: Result<string>, publicUri: string)

  /**
   What the layer calls on the native side and never sees into:
   `KettleVFS.getFileObject(url, space)`, and a handle's `exists`, `getChildren`,
   `getChild(name)` (absent when there is no such child) and `refresh`.
   */
  datatype Driver = Driver(
    resolve: (string, Vars) -> Result<Handle>,
    fileExists: Handle -> Result<bool>,
    children: Handle -> Result<seq<Handle>>,
    childNamed: (Handle, string) -> Result<Option<Handle>>,
    refresh: Handle -> Outcome)
}

=== FILE: text.dfy ===
/**
 Character classes of `java.util.regex` as the modelled patterns use them, and
 the few string operations of `java.lang.String` the layer relies on.
 Strings are sequences of characters; no case folding or normalisation happens
 anywhere in the modelled code.
 */
module Text {
  import opened Core

  /** Java's `\w` without UNICODE_CHARACTER_CLASS: `[a-zA-Z_0-9]`. */
  predicate IsWordChar(c: char) {
    ('a' <= c <= 'z') || ('A' <= c <= 'Z') || ('0' <= c <= '9') || c == '_'
  }

  /** The characters Java's `.` refuses when DOTALL is off. */
  predicate IsLineTerminator(c: char) {
    c == '\n' || c == '\r' || c == '\U{0085}' || c == '\U{2028}' || c == '\U{2029}'
  }

  /** The class `[^/]`. */
  predicate IsNotSlash(c: char) {
    c != '/'
  }

  /** The class `.`. */
  predicate IsNotLineTerminator(c: char) {
    !IsLineTerminator(c)
  }

  /** The class `[\w_-]` of a connection name in the file-open-save dialogs. */
  predicate IsNameChar(c: char) {
    IsWordChar(c) || c == '_' || c == '-'
  }

  /** Every character of `s[lo..hi]` is in class `p`. */
  predicate Every(s: string, lo: int, hi: int, p: char -> bool)
    requires 0 <= lo <= hi <= |s|
  {
    forall k :: lo <= k < hi ==> p(s[k])
  }

  /** `s` contains no `/`. */
  predicate NoSlash(s: string) {
    forall k :: 0 <= k < |s| ==> s[k] != '/'
  }

  /** `s` contains no line terminator. */
  predicate NoLineTerminator(s: string) {
    forall k :: 0 <= k < |s| ==> !IsLineTerminator(s[k])
  }

  /** `s` is empty or does not start with a line terminator, so `.` can take its first character. */
  predicate StartsPlain(s: string) {
    s == "" || !IsLineTerminator(s[0])
  }

  /** `s` is a non-empty run of word characters, as `\w+` matches it. */
  predicate IsWord(s: string) {
    |s| > 0 && forall k :: 0 <= k < |s| ==> IsWordChar(s[k])
  }

  /** Two slash-free strings join into a slash-free one. */
  lemma NoSlashConcat(a: string, b: string)
    requires NoSlash(a) && NoSlash(b)
    ensures NoSlash(a + b)
  {
  }

  /** Two strings free of line terminators join into one free of them. */
  lemma NoLineTerminatorConcat(a: string, b: string)
    requires NoLineTerminator(a) && NoLineTerminator(b)
    ensures NoLineTerminator(a + b)
  {
  }

  /** A string is its four consecutive slices joined back together. */
  lemma SplitFour(s: string, i: nat, j: nat, k: nat)
    requires i <= j <= k <= |s|
    ensures s == s[..i] + s[i..j] + s[j..k] + s[k..]
  {
  }

  /** Equal strings with a common prefix agree after it. */
  lemma ConcatCancel(a: string, b: string, c: string)
    ensures a + b == a + c ==> b == c
  {
    if a + b == a + c {
      assert (a + b)[|a|..] == b;
      assert (a + c)[|a|..] == c;
    }
  }

  /** Concatenation regroups freely; stated once so that proofs need not rediscover it. */
  lemma ConcatAssoc(a: string, b: string, c: string)
    ensures a + b + c == a + (b + c)
  {
  }

  /**
   The end of the longest run of class-`p` characters that starts at `i`: where a
   greedy `p*` starting at `i` stops.
   */
  function RunEnd(s: string, i: nat, p: char -> bool): (j: nat)
    requires i <= |s|
    ensures i <= j <= |s|
    ensures Every(s, i, j, p)
    ensures j < |s| ==> !p(s[j])
    decreases |s| - i
  {
    if i < |s| && p(s[i]) then RunEnd(s, i + 1, p) else i
  }

  /** A run is determined by where it starts: any maximal run from `i` ends where RunEnd says. */
  lemma RunEndAt(s: string, i: nat, j: nat, p: char -> bool)
    requires i <= j <= |s|
    requires Every(s, i, j, p)
    requires j < |s| ==> !p(s[j])
    ensures RunEnd(s, i, p) == j
  {
  }

  /** A run reaches at least as far as any block of class-`p` characters that starts with it. */
  lemma RunEndCovers(s: string, i: nat, j: nat, p: char -> bool)
    requires i <= j <= |s|
    requires Every(s, i, j, p)
    ensures j <= RunEnd(s, i, p)
  {
  }

  /** `t` occurs in `s` at position `i`. */
  predicate HasAt(s: string, i: int, t: string) {
    0 <= i && i + |t| <= |s| && s[i..i + |t|] == t
  }

  /** `String.startsWith`. */
  predicate StartsWith(s: string, prefix: string) {
    HasAt(s, 0, prefix)
  }

  /** `String.indexOf(t, from)`: the leftmost occurrence of `t` at or after `from`. */
  function IndexOf(s: string, t: string, from: nat): (k: Option<nat>)
    requires |t| > 0
    ensures k.Some? ==> from <= k.value && HasAt(s, k.value, t)
    ensures k.Some? ==> forall i :: from <= i < k.value ==> !HasAt(s, i, t)
    ensures k.None? ==> forall i :: from <= i ==> !HasAt(s, i, t)
    decreases |s| - from
  {
    if from + |t| > |s| then None
    else if s[from..from + |t|] == t then Some(from)
    else IndexOf(s, t, from + 1)
  }

  /**
   `String.replaceFirst(t, r)` for a pattern `t` and a replacement `r` that hold no
   regex or replacement metacharacters: the leftmost occurrence of `t` becomes `r`.
   */
  function ReplaceFirst(s: string, t: string, r: string): string
    requires |t| > 0
  {
    match IndexOf(s, t, 0)
    case None => s
    case Some(k) => s[..k] + r + s[k + |t|..]
  }

  /** Without an occurrence of `t`, ReplaceFirst changes nothing. */
  lemma ReplaceFirstWithoutOccurrence(s: string, t: string, r: string)
    requires |t| > 0
    requires forall i :: !HasAt(s, i, t)
    ensures ReplaceFirst(s, t, r) == s
  {
  }

  /**
   When `t` first occurs right after `a`, ReplaceFirst swaps exactly that
   occurrence and leaves the rest, including later occurrences, alone.
   */
  lemma {:induction false} ReplaceFirstSplits(a: string, t: string, b: string, r: string)
    requires |t| > 0
    requires forall i :: 0 <= i < |a| ==> !HasAt(a + t + b, i, t)
    ensures ReplaceFirst(a + t + b, t, r) == a + r + b
  {
    var s := a + t + b;
    assert HasAt(s, |a|, t) by {
      assert s[|a|..|a| + |t|] == t;
    }
    var k := IndexOf(s, t, 0);
    assert k == Some(|a|);
    assert s[..|a|] == a;
    assert s[|a| + |t|..] == b;
  }
}

=== FILE: uri_transformer_examples.dfy ===
/**
 The example the strategy interface documents, and the bucket-root rule on a
 bare `s3://` URL, as consequences of the general lemmas.
 */
module UriTransformerExamples {
  import opened Core
  import opened Text
  import opened NativeVfs
  import opened ConnectionUriParser
  import opened UriTransformers

  /** An S3 connection: type `s3`, no domain, with buckets. */
  const S3Details: Details := Details(Vfs, "someConnectionName", "s3", Some(""), true, None)

  const Bucket: string := "someLargeBucket"
  const Rest: string := "/someDir1/anotherFileB/randomFile1.txt"

  lemma ExamplePartsAreWellFormed()
    ensures IsWord("s3") && NoSlash(Bucket) && |Bucket| > 0
    ensures |Rest| >= 2 && Rest[0] == '/' && NoLineTerminator(Rest)
  {
  }

  lemma PrefixesSpellOut()
    ensures "s3" + "://" == "s3://"
    ensures Scheme + "://" + "someConnectionName" + "/" == "pvfs://someConnectionName/"
  {
  }

  /**
   The documented pair: the pvfs path `/someLargeBucket/someDir1/anotherFileB/randomFile1.txt`
   of connection `someConnectionName` is the provider URI
   `s3://someLargeBucket/someDir1/anotherFileB/randomFile1.txt`, and the S3 object
   with host `someLargeBucket` at that path is the pvfs URI
   `pvfs://someConnectionName/someLargeBucket/someDir1/anotherFileB/randomFile1.txt`.
   */
  lemma DocumentedExample(f: Handle)
    requires f.name == PathName(Rest) && f.urlHost == Success(Bucket)
    ensures DefaultToProviderUri(Real(S3Details), "/" + Bucket + Rest)
      == Success("s3://" + Bucket + Rest)
    ensures DefaultToVfsUri(Real(S3Details), f)
      == Success("pvfs://someConnectionName/" + Bucket + Rest)
  {
    ExamplePartsAreWellFormed();
    PrefixesSpellOut();
    BucketRoundTrip(DefaultTransformer(Real(S3Details)), Bucket, Rest, f);
  }

  /**
   The bucket-root rule: the root of an S3 connection with buckets is the bare
   URL `s3://`, to which the connection name is appended; a connection without
   buckets keeps the bare URL.
   */
  lemma BucketRootExample()
    ensures DefaultToProviderUri(Real(S3Details), "/") == Success("s3" + "://" + S3Details.name)
    ensures DefaultToProviderUri(Real(S3Details.(hasBuckets := false)), "/") == Success("s3" + "://")
  {
    S3RootIsBare();
    EmptyDomainRoot("s3", "/");
  }

  /** Without a domain, the provider URL of the root path is the bare `s3://`. */
  lemma S3RootIsBare()
    ensures ProviderBase("s3", "", "/") == "s3" + "://"
  {
    assert ProviderBase("s3", "", "/") == "s3" + ":/" + "/";
    ConcatAssoc("s3", ":/", "/");
  }
}

=== FILE: uri_transformers.dfy ===
/**
 The two directions between a pvfs URI and the provider URI behind it, and the
 strategy objects that perform them:

   pvfs://someConnectionName/someLargeBucket/someDir1/anotherFileB/randomFile1.txt
   s3://someLargeBucket/someDir1/anotherFileB/randomFile1.txt

 `toProviderUri` goes from a pvfs file name to the provider URI, `toVfsUri` from a
 native file object back to a pvfs URI. The default transformer wraps any VFS
 connection details; a base details object is its own transformer and delegates
 to the default one; the legacy transformer only converts children and refuses
 the other direction.
 */
module UriTransformers {
  import opened Core
  import opened Text
  import opened NativeVfs
  import opened ConnectionUriParser

  /** `ConnectionFileProvider.SCHEME`. */
  const Scheme: string := "pvfs"

  /** How a connection-details object relates to the two interfaces the layer casts it to. */
  datatype DetailsKind =
    | Plain     // a ConnectionDetails that is not a VFSConnectionDetails
    | Vfs       // a VFSConnectionDetails that does not extend BaseVFSConnectionDetails
    | BaseVfs   // a BaseVFSConnectionDetails

  /** A connection-details object, read through its accessors. */
  datatype Details = Details(
    kind: DetailsKind,
    name: string,
    connectionType: string,
    domain: Option<string>,
    hasBuckets: bool,
    space: Option<Vars>)

  /**
   The details a default transformer is built over: a null reference, real
   details, or the anonymous details the legacy transformer makes on the fly,
   which answer only `getName` and `getDomain` and throw on everything else.
   */
  datatype DetailsRef =
    | NullDetails
    | Real(details: Details)
    | Synthetic(connectionName: string, connectionDomain: Option<string>)

  /**
   `DOMAIN_ROOT = "[\w]+://"` used with `String.matches`: the whole string is a
   word and `://`, so the separator occurs only at its end.
   */
  function IsDomainRoot(url: string): (b: bool)
    ensures b ==> |url| >= 4 && forall j :: HasAt(url, j, "://") ==> j == |url| - 3
  {
    if |url| >= 3 && url[|url| - 3..] == "://" && IsWord(url[..|url| - 3]) then
      DomainRootSeparatorAtEnd(url);
      true
    else false
  }

  /** In a word followed by `://` no earlier `://` can start, since `:` is not a word character. */
  lemma DomainRootSeparatorAtEnd(url: string)
    requires |url| >= 3 && url[|url| - 3..] == "://" && IsWord(url[..|url| - 3])
    ensures |url| >= 4 && forall j :: HasAt(url, j, "://") ==> j == |url| - 3
  {
    assert forall k :: 0 <= k < |url| - 3 ==> IsWordChar(url[k]) by {
      forall k | 0 <= k < |url| - 3
        ensures IsWordChar(url[k])
      {
        assert url[..|url| - 3][k] == url[k];
      }
    }
    forall j | HasAt(url, j, "://")
      ensures j == |url| - 3
    {
      assert url[j..j + 3][0] == url[j] == ':';
    }
  }

  /** The provider URL before the bucket rule: `type + ":/" + ["/" + domain] + path`. */
  function ProviderBase(connectionType: string, domain: string, path: string): string {
    connectionType + ":/" + (if domain == "" then "" else "/" + domain) + path
  }

  /** The root-shape test is the full match of `[\w]+://`. */
  lemma {:induction false} DomainRootIsFullMatch(url: string)
    ensures IsDomainRoot(url) <==> exists w :: IsWord(w) && url == w + "://"
  {
    if IsDomainRoot(url) {
      var w := url[..|url| - 3];
      assert url == w + "://";
    }
    if exists w :: IsWord(w) && url == w + "://" {
      var w :| IsWord(w) && url == w + "://";
      assert url[..|url| - 3] == w;
      assert url[|url| - 3..] == "://";
    }
  }

  /** With a non-empty domain the URL holds a `:` before its last three characters, so it is never a root. */
  lemma NonEmptyDomainIsNeverRoot(connectionType: string, domain: string, path: string)
    requires domain != ""
    ensures !IsDomainRoot(ProviderBase(connectionType, domain, path))
  {
    var url := ProviderBase(connectionType, domain, path);
    var k := |connectionType|;
    assert url[k] == ':';
    assert k < |url| - 3;
    assert url[..|url| - 3][k] == ':';
  }

  /** With an empty domain the URL is a root exactly when the type is a word and the path is `/`. */
  lemma EmptyDomainRoot(connectionType: string, path: string)
    ensures IsDomainRoot(ProviderBase(connectionType, "", path)) <==> IsWord(connectionType) && path == "/"
  {
    var url := ProviderBase(connectionType, "", path);
    var k := |connectionType|;
    assert url == connectionType + ":/" + path;
    if IsDomainRoot(url) {
      assert url[k] == ':';
      assert forall i :: 0 <= i < |url| - 3 ==> url[i] == url[..|url| - 3][i];
      assert k >= |url| - 3;
      assert url[..|url| - 3] == connectionType;
      assert path == url[k + 2..];
    }
    if IsWord(connectionType) && path == "/" {
      assert url == connectionType + "://";
      assert url[..|url| - 3] == connectionType;
    }
  }

  /** `getName()` of the wrapped details. */
  function DetailsName(d: DetailsRef): string
    requires !d.NullDetails?
  {
    match d
    case Real(x) => x.name
    case Synthetic(n, _) => n
  }

  /** `getDomain()` of the wrapped details. */
  function DetailsDomain(d: DetailsRef): Option<string>
    requires !d.NullDetails?
  {
    match d
    case Real(x) => x.domain
    case Synthetic(_, dom) => dom
  }

  /**
   `PocDefaultVFSUriTransformer.toProviderUri`. The accessors are called in the
   source's order, so a null details object or a null domain fails first with a
   NullPointerException, and the anonymous legacy details fail at `getType`. The
   connection name is appended only to a bare `type://` URL of a connection
   with buckets.
   */
  function DefaultToProviderUri(d: DetailsRef, path: string): (r: Result<string>)
    ensures d.NullDetails? ==> r == Failure(NullPointer)
    ensures !d.NullDetails? && DetailsDomain(d).None? ==> r == Failure(NullPointer)
    ensures d.Synthetic? && d.connectionDomain.Some? ==> r == Failure(NotImplemented)
    ensures r.Success? <==> d.Real? && d.details.domain.Some?
    ensures r.Success? ==>
      var x := d.details;
      var url := ProviderBase(x.connectionType, x.domain.value, path);
      StartsWith(r.value, x.connectionType + ":/")
      && (IsDomainRoot(url) && x.hasBuckets ==> r.value == url + x.name)
      && (!(IsDomainRoot(url) && x.hasBuckets) ==> r.value == url)
  {
    match d
    case NullDetails => Failure(NullPointer)
    case Synthetic(_, dom) =>
      if dom.None? then Failure(NullPointer) else Failure(NotImplemented)
    case Real(x) =>
      if x.domain.None? then Failure(NullPointer)
      else
        var url := ProviderBase(x.connectionType, x.domain.value, path);
        assert url == x.connectionType + ":/" + ((if x.domain.value == "" then "" else "/" + x.domain.value) + path);
        if IsDomainRoot(url) && x.hasBuckets then Success(url + x.name) else Success(url)
  }

  /**
   The host part of `toVfsUri`: the host name of a `URLFileName`, otherwise the
   host of the native URL, whose FileSystemException becomes a RuntimeException.
   */
  function HostOf(f: Handle): (r: Result<string>)
    ensures f.name.UrlName? ==> r == Success(f.name.hostName)
    ensures f.name.PathName? && f.urlHost.Success? ==> r == f.urlHost
    ensures f.name.PathName? && f.urlHost.Failure? ==> r == Failure(Runtime(f.urlHost.error))
  {
    match f.name
    case UrlName(host, _) => Success(host)
    case PathName(_) =>
      match f.urlHost
      case Success(host) => Success(host)
      case Failure(e) => Failure(Runtime(e))
  }

  /** The domain is absent or empty: `toVfsUri` then puts the native host in front of the path. */
  predicate NeedsHost(domain: Option<string>) {
    domain.None? || domain.value == ""
  }

  /**
   `PocDefaultVFSUriTransformer.toVfsUri`: `pvfs://` + name + `/`, then the host
   when the domain is null or empty, then the native path. A failure to read the
   host surfaces as a failure of the whole call, never as a partial URI.
   */
  function DefaultToVfsUri(d: DetailsRef, f: Handle): (r: Result<string>)
    ensures d.NullDetails? ==> r == Failure(NullPointer)
    ensures r.Success? ==> StartsWith(r.value, Scheme + "://" + DetailsName(d) + "/")
    ensures !d.NullDetails? && !NeedsHost(DetailsDomain(d)) ==>
      r == Success(Scheme + "://" + DetailsName(d) + "/" + f.name.path)
    ensures !d.NullDetails? && NeedsHost(DetailsDomain(d)) && HostOf(f).Success? ==>
      r == Success(Scheme + "://" + DetailsName(d) + "/" + HostOf(f).value + f.name.path)
    ensures !d.NullDetails? && NeedsHost(DetailsDomain(d)) && HostOf(f).Failure? ==> r == Failure(HostOf(f).error)
    ensures r.Failure? ==> d.NullDetails? || (NeedsHost(DetailsDomain(d)) && r.error == HostOf(f).error && r.error.Runtime?)
  {
    match d
    case NullDetails => Failure(NullPointer)
    case _ =>
      var prefix := Scheme + "://" + DetailsName(d) + "/";
      assert StartsWith(prefix + "" + f.name.path, prefix);
      if NeedsHost(DetailsDomain(d)) then
        match HostOf(f)
        case Failure(e) => Failure(e)
        case Success(host) =>
          assert (prefix + host + f.name.path)[..|prefix|] == prefix;
          Success(prefix + host + f.name.path)
      else
        assert (prefix + "" + f.name.path) == prefix + f.name.path;
        Success(prefix + f.name.path)
  }

  /** The three implementations of the `PocVFSUriTransformer` strategy. */
  datatype Transformer =
    | DefaultTransformer(wrapped: DetailsRef)                               // new PocDefaultVFSUriTransformer(details)
    | DetailsTransformer(own: Details)                                      // a BaseVFSConnectionDetails, its own transformer
    | LegacyTransformer(connectionName: string, connectionDomain: Option<string>) // PocLegacyGetChildVFSUriTransformer

  /** The details each strategy hands to the default transformer it delegates to. */
  function DelegateDetails(t: Transformer): DetailsRef {
    match t
    case DefaultTransformer(d) => d
    case DetailsTransformer(x) => Real(x)
    case LegacyTransformer(n, dom) => Synthetic(n, dom)
  }

  /** `toProviderUri` of each strategy: the legacy one refuses whatever the input. */
  function ToProviderUri(t: Transformer, path: string): (r: Result<string>)
    ensures t.LegacyTransformer? ==> r == Failure(NotImplemented)
    ensures !t.LegacyTransformer? ==> r == DefaultToProviderUri(DelegateDetails(t), path)
  {
    match t
    case LegacyTransformer(_, _) => Failure(NotImplemented)
    case _ => DefaultToProviderUri(DelegateDetails(t), path)
  }

  /** `toVfsUri` of each strategy: every one goes through the default transformer. */
  function ToVfsUri(t: Transformer, f: Handle): (r: Result<string>)
    ensures r == DefaultToVfsUri(DelegateDetails(t), f)
  {
    match t
    case DefaultTransformer(d) => DefaultToVfsUri(d, f)
    case DetailsTransformer(x) => DefaultToVfsUri(Real(x), f)
    case LegacyTransformer(n, dom) => DefaultToVfsUri(Synthetic(n, dom), f)
  }

  // ---------------------------------------------------------------------------
  // The strategies against each other.

  /**
   The legacy transformer converts a child exactly as the default transformer
   does over any real details with the same name and domain: the anonymous
   details are asked only for name and domain, and their throwing accessors are
   never reached.
   */
  lemma LegacyAgreesWithDefault(n: string, dom: Option<string>, x: Details, f: Handle)
    requires x.name == n && x.domain == dom
    ensures ToVfsUri(LegacyTransformer(n, dom), f) == DefaultToVfsUri(Real(x), f)
    ensures ToVfsUri(LegacyTransformer(n, dom), f) != Failure(NotImplemented)
  {
  }

  /**
   A base details object used as its own transformer behaves as a default
   transformer wrapped around it, in both directions, bucket rule included.
   */
  lemma DetailsTransformerAgreesWithDefault(x: Details, path: string, f: Handle)
    ensures ToProviderUri(DetailsTransformer(x), path) == ToProviderUri(DefaultTransformer(Real(x)), path)
    ensures ToVfsUri(DetailsTransformer(x), f) == ToVfsUri(DefaultTransformer(Real(x)), f)
  {
  }

  // ---------------------------------------------------------------------------
  // Each direction against the parser.

  lemma SchemeIsWord()
    ensures IsWord(Scheme)
  {
    assert Scheme == "pvfs";
  }

  /**
   What `toVfsUri` writes after `pvfs://name/`: the native path, with the host
   in front when the domain is null or empty.
   */
  function VfsTail(t: Transformer, f: Handle): string
    requires !DelegateDetails(t).NullDetails?
  {
    if NeedsHost(DetailsDomain(DelegateDetails(t))) && HostOf(f).Success? then HostOf(f).value + f.name.path
    else f.name.path
  }

  /** A successful `toVfsUri` is `pvfs://name/` followed by the tail. */
  lemma VfsUriRest(t: Transformer, f: Handle)
    requires !DelegateDetails(t).NullDetails? && ToVfsUri(t, f).Success?
    ensures ToVfsUri(t, f).value == Scheme + "://" + DetailsName(DelegateDetails(t)) + "/" + VfsTail(t, f)
  {
    var d := DelegateDetails(t);
    if NeedsHost(DetailsDomain(d)) {
      assert ToVfsUri(t, f).value == Scheme + "://" + DetailsName(d) + "/" + HostOf(f).value + f.name.path;
      ConcatAssoc(Scheme + "://" + DetailsName(d) + "/", HostOf(f).value, f.name.path);
    }
  }

  /**
   A pvfs URI made by `toVfsUri` parses back into the `pvfs` scheme and the
   connection name whenever the tail after `pvfs://name/` is empty or does not
   start with a line terminator: `(/.+)` then fits right after the name.
   */
  lemma VfsUriNameParsesBack(t: Transformer, f: Handle)
    requires !DelegateDetails(t).NullDetails?
    requires |DetailsName(DelegateDetails(t))| > 0 && NoSlash(DetailsName(DelegateDetails(t)))
    requires ToVfsUri(t, f).Success?
    requires StartsPlain(VfsTail(t, f))
    ensures var p := Parse(Some(ToVfsUri(t, f).value));
      p.scheme == Some(Scheme) && p.connectionName == Some(DetailsName(DelegateDetails(t)))
  {
    VfsUriRest(t, f);
    SchemeIsWord();
    ParseNameBeforeRest(Scheme, DetailsName(DelegateDetails(t)), VfsTail(t, f));
  }

  /**
   When the tail holds no line terminator at all, the parsed path is the whole
   tail: the URI is `pvfs://name` followed by the parsed path (or by `/` alone
   when the parser reports none).
   */
  lemma VfsUriParsesBack(t: Transformer, f: Handle)
    requires !DelegateDetails(t).NullDetails?
    requires |DetailsName(DelegateDetails(t))| > 0 && NoSlash(DetailsName(DelegateDetails(t)))
    requires ToVfsUri(t, f).Success?
    requires NoLineTerminator(VfsTail(t, f))
    ensures var u := ToVfsUri(t, f).value;
      var p := Parse(Some(u));
      p.scheme == Some(Scheme) && p.connectionName == Some(DetailsName(DelegateDetails(t)))
      && u == Scheme + "://" + DetailsName(DelegateDetails(t)) + (if p.pvfsPath.Some? then p.pvfsPath.value else "/")
  {
    VfsUriRest(t, f);
    PvfsUriParses(DetailsName(DelegateDetails(t)), VfsTail(t, f), ToVfsUri(t, f).value);
  }

  /**
   The converse: a line terminator in the tail ends the parsed path before it,
   so the URI can no longer be rebuilt from what the parser reports.
   */
  lemma VfsUriRebuildNeedsPlainTail(t: Transformer, f: Handle)
    requires !DelegateDetails(t).NullDetails?
    requires ToVfsUri(t, f).Success?
    requires !NoLineTerminator(VfsTail(t, f))
    ensures var u := ToVfsUri(t, f).value;
      var p := Parse(Some(u));
      u != Scheme + "://" + DetailsName(DelegateDetails(t)) + (if p.pvfsPath.Some? then p.pvfsPath.value else "/")
  {
    var u := ToVfsUri(t, f).value;
    var p := Parse(Some(u));
    var prefix := Scheme + "://" + DetailsName(DelegateDetails(t));
    var rebuilt := if p.pvfsPath.Some? then p.pvfsPath.value else "/";
    var tail := VfsTail(t, f);
    VfsUriRest(t, f);
    ConcatAssoc(prefix, "/", tail);
    var k :| 0 <= k < |tail| && IsLineTerminator(tail[k]);
    assert ("/" + tail)[k + 1] == tail[k];
    assert rebuilt != "/" + tail;
    ConcatCancel(prefix, rebuilt, "/" + tail);
  }

  /** `pvfs://name/rest` parses into `pvfs` and the name, and is rebuilt from them and the parsed path. */
  lemma PvfsUriParses(name: string, rest: string, u: string)
    requires |name| > 0 && NoSlash(name) && NoLineTerminator(rest)
    requires u == Scheme + "://" + name + "/" + rest
    ensures var p := Parse(Some(u));
      p.scheme == Some(Scheme) && p.connectionName == Some(name)
      && u == Scheme + "://" + name + (if p.pvfsPath.Some? then p.pvfsPath.value else "/")
  {
    SchemeIsWord();
    ParseNameAndRest(Scheme, name, rest);
    var prefix := Scheme + "://" + name;
    if rest != "" {
      ConcatAssoc(prefix, "/", rest);
    } else {
      assert prefix + "/" + rest == prefix + "/";
    }
  }

  /**
   With a domain, the provider URI is `type://domain/path`, and the parser reads
   the domain back as the authority and the path unchanged.
   */
  lemma ProviderUriWithDomainParses(x: Details, path: string)
    requires x.domain.Some? && x.domain.value != "" && NoSlash(x.domain.value)
    requires IsWord(x.connectionType)
    requires |path| >= 2 && path[0] == '/' && NoLineTerminator(path)
    ensures DefaultToProviderUri(Real(x), path) == Success(x.connectionType + "://" + x.domain.value + path)
    ensures Parse(Some(DefaultToProviderUri(Real(x), path).value))
      == ParsedUri(Some(x.connectionType), Some(x.domain.value), Some(path))
  {
    var dom := x.domain.value;
    NonEmptyDomainIsNeverRoot(x.connectionType, dom, path);
    assert ProviderBase(x.connectionType, dom, path) == x.connectionType + "://" + dom + path;
    ParseRoundTrip(x.connectionType, dom, path);
  }

  /**
   The round trip through a bucket store: with an empty domain, the pvfs path
   `/bucket/rest` becomes the provider URI `type://bucket/rest`, which the parser
   splits into bucket and rest; and a native file whose host is that bucket and
   whose path is that rest converts back to the pvfs URI it came from.
   */
  lemma BucketRoundTrip(t: Transformer, bucket: string, rest: string, f: Handle)
    requires !t.LegacyTransformer? && DelegateDetails(t).Real?
    requires DelegateDetails(t).details.domain == Some("")
    requires IsWord(DelegateDetails(t).details.connectionType)
    requires |bucket| > 0 && NoSlash(bucket)
    requires |rest| >= 2 && rest[0] == '/' && NoLineTerminator(rest)
    requires HostOf(f) == Success(bucket) && f.name.path == rest
    ensures var x := DelegateDetails(t).details;
      ToProviderUri(t, "/" + bucket + rest) == Success(x.connectionType + "://" + bucket + rest)
    ensures var x := DelegateDetails(t).details;
      Parse(Some(x.connectionType + "://" + bucket + rest)) == ParsedUri(Some(x.connectionType), Some(bucket), Some(rest))
    ensures ToVfsUri(t, f) == Success(Scheme + "://" + DelegateDetails(t).details.name + "/" + bucket + rest)
  {
    var x := DelegateDetails(t).details;
    var path := "/" + bucket + rest;
    EmptyDomainRoot(x.connectionType, path);
    assert path != "/";
    assert ProviderBase(x.connectionType, "", path) == x.connectionType + "://" + bucket + rest;
    ParseRoundTrip(x.connectionType, bucket, rest);
  }
}

=== FILE: vfs_file_provider.dfy ===
/**
 The pure part of the file-open-save dialogs' provider for VFS connections
 (`VFSFileProvider`): which paths are connection roots, which connections have
 buckets, the tree of connection locations, the bucket folders of a connection
 root with their per-path memo, and two small helpers.
 */
module VfsFileProvider {
  import opened Core
  import opened Text
  import opened ConnectionUriParser
  import opened UriTransformers

  /** `VFSFileProvider.NAME`, the root every location and bucket folder names. */
  const ProviderName: string := "VFS Connections"

  /** The prefix of the message getRoot gives a failing `getLocations`. */
  const LocationsError: string := "Error getting VFS locations. Check your credentials and for connectivity."

  // ---------------------------------------------------------------------------
  // isConnectionRoot: `[\w]+://[\w_-]+[/]?` as a full match.

  /** A non-empty run of connection-name characters, as `[\w_-]+` matches it. */
  predicate IsConnectionName(s: string) {
    |s| > 0 && forall k :: 0 <= k < |s| ==> IsNameChar(s[k])
  }

  /**
   The full match of `CONNECTION_NAME_ROOT_REGEX`. Neither run can give back a
   character (a word run is followed by `:`, a name run by `/` or the end), so
   the greedy runs decide the match.
   */
  predicate IsConnectionRootPath(p: string) {
    var j := RunEnd(p, 0, IsWordChar);
    j > 0 && HasAt(p, j, "://")
    && var k := RunEnd(p, j + 3, IsNameChar);
    k > j + 3 && (k == |p| || (k + 1 == |p| && p[k] == '/'))
  }

  /** The regex read declaratively: a scheme, `://`, a connection name, and at most one trailing `/`. */
  ghost predicate RootShape(p: string) {
    exists w, n, t :: IsWord(w) && IsConnectionName(n) && (t == "" || t == "/") && p == w + "://" + n + t
  }

  /** A root path splits into the scheme run, `://`, the name run and what follows. */
  lemma RootPathSplits(p: string)
    requires IsConnectionRootPath(p)
    ensures RootShape(p)
  {
    var j := RunEnd(p, 0, IsWordChar);
    var k := RunEnd(p, j + 3, IsNameChar);
    var w, n, t := p[..j], p[j + 3..k], p[k..];
    assert p[j..j + 3] == "://";
    SplitFour(p, j, j + 3, k);
    assert IsWord(w) && IsConnectionName(n);
  }

  /** A path of the regex's shape passes the matcher: both runs stop exactly at the shape's seams. */
  lemma RootShapeMatches(w: string, n: string, t: string)
    requires IsWord(w) && IsConnectionName(n) && (t == "" || t == "/")
    ensures IsConnectionRootPath(w + "://" + n + t)
  {
    var p := w + "://" + n + t;
    var j := |w|;
    var k := j + 3 + |n|;
    assert forall i :: 0 <= i < j ==> p[i] == w[i];
    assert p[j] == ':';
    RunEndAt(p, 0, j, IsWordChar);
    assert p[j..j + 3] == "://";
    assert forall i :: j + 3 <= i < k ==> p[i] == n[i - j - 3];
    assert t == "/" ==> p[k] == '/' && k + 1 == |p|;
    RunEndAt(p, j + 3, k, IsNameChar);
  }

  /** A path that goes on past `scheme://name/` is not a connection root. */
  lemma PastTheNameIsNotRoot(w: string, n: string, rest: string)
    requires IsWord(w) && IsConnectionName(n) && |rest| > 0
    ensures !IsConnectionRootPath(w + "://" + n + "/" + rest)
  {
    var p := w + "://" + n + "/" + rest;
    var j := |w|;
    var k := j + 3 + |n|;
    assert forall i :: 0 <= i < j ==> p[i] == w[i];
    assert p[j] == ':';
    RunEndAt(p, 0, j, IsWordChar);
    assert p[j..j + 3] == "://";
    assert forall i :: j + 3 <= i < k ==> p[i] == n[i - j - 3];
    assert p[k] == '/' && k + 1 < |p|;
    RunEndAt(p, j + 3, k, IsNameChar);
  }

  /** The matcher decides exactly the full match of the regex. */
  lemma ConnectionRootIsRegex(p: string)
    ensures IsConnectionRootPath(p) <==> RootShape(p)
  {
    if IsConnectionRootPath(p) {
      RootPathSplits(p);
    }
    if RootShape(p) {
      var w, n, t :| IsWord(w) && IsConnectionName(n) && (t == "" || t == "/") && p == w + "://" + n + t;
      RootShapeMatches(w, n, t);
    }
  }

  /** A file of the dialogs, as far as these operations read it. */
  datatype VfsFile = VfsFile(path: Option<string>, connection: Option<string>, provider: string)

  /** `isConnectionRoot`: false for a null file and for a null or empty path. */
  function IsConnectionRoot(file: Option<VfsFile>): (b: bool)
    ensures b <==> file.Some? && file.value.path.Some? && RootShape(file.value.path.value)
  {
    if file.Some? && file.value.path.Some? then
      ConnectionRootIsRegex(file.value.path.value);
      file.value.path.value != "" && IsConnectionRootPath(file.value.path.value)
    else false
  }

  /** A connection root names exactly a connection: the URI parser reads it as scheme and name, with no path. */
  lemma ConnectionRootParses(w: string, n: string, t: string)
    requires IsWord(w) && IsConnectionName(n) && (t == "" || t == "/")
    ensures IsConnectionRootPath(w + "://" + n + t)
    ensures Parse(Some(w + "://" + n + t)) == ParsedUri(Some(w), Some(n), None)
  {
    RootShapeMatches(w, n, t);
    assert NoSlash(n);
    ParseNameOnly(w, n, t);
  }

  // ---------------------------------------------------------------------------
  // hasBuckets and the location tree.

  /** `hasBuckets(details)`: only VFS details can have buckets; a null reference has none. */
  function HasBuckets(d: Option<Details>): (b: bool)
    ensures b ==> d.Some? && d.value.hasBuckets
    ensures d.Some? && d.value.kind == Plain ==> !b
    ensures d.Some? && d.value.kind != Plain && d.value.hasBuckets ==> b
  {
    d.Some? && d.value.kind != Plain && d.value.hasBuckets
  }

  /** A location of the connection tree. */
  datatype Location = Location(
    name: string,
    root: string,
    hasChildren: bool,
    canDelete: bool,
    path: string,
    domain: Option<string>,
    connection: string,
    canAddChildren: bool,
    hasBuckets: bool)

  /** The location getTree makes for one connection. */
  function LocationOf(x: Details): (l: Location)
    ensures l.path == Scheme + "://" + l.name && l.connection == l.name == x.name
    ensures l.canAddChildren == x.hasBuckets && l.domain == x.domain
    ensures l.hasBuckets <==> StartsWith(x.connectionType, "s3") || StartsWith(x.connectionType, "snw")
  {
    Location(x.name, ProviderName, true, false, Scheme + "://" + x.name, x.domain, x.name, x.hasBuckets,
             StartsWith(x.connectionType, "s3") || StartsWith(x.connectionType, "snw"))
  }

  /** A connection passes the type filter when the filter is empty or lists its type. */
  predicate Selected(types: seq<string>, x: Details) {
    |types| == 0 || x.connectionType in types
  }

  /** The locations of the selected connections, in order: the reference for getTree. */
  function Locations(types: seq<string>, ds: seq<Details>): (r: seq<Location>)
    ensures |r| <= |ds|
    ensures |types| == 0 ==> |r| == |ds| && forall i :: 0 <= i < |ds| ==> r[i] == LocationOf(ds[i])
  {
    if ds == [] then []
    else (if Selected(types, ds[0]) then [LocationOf(ds[0])] else []) + Locations(types, ds[1..])
  }

  /** A location is in the tree iff it belongs to some selected connection. */
  lemma {:induction false} LocationsAreTheSelected(types: seq<string>, ds: seq<Details>)
    ensures forall l :: l in Locations(types, ds) <==> exists x :: x in ds && Selected(types, x) && l == LocationOf(x)
  {
    if ds != [] {
      LocationsAreTheSelected(types, ds[1..]);
      forall l
        ensures l in Locations(types, ds) <==> exists x :: x in ds && Selected(types, x) && l == LocationOf(x)
      {
        if exists x :: x in ds && Selected(types, x) && l == LocationOf(x) {
          var x :| x in ds && Selected(types, x) && l == LocationOf(x);
          if x != ds[0] {
            assert x in ds[1..];
          }
        }
        if l in Locations(types, ds[1..]) {
          var x :| x in ds[1..] && Selected(types, x) && l == LocationOf(x);
          assert x in ds;
        }
      }
    }
  }

  /**
   `getTree(connectionTypes)` over the connections of every VFS provider, in
   order. Every connection is cast to VFS details before the filter is applied,
   so a non-VFS connection fails the whole call even when its type is filtered out.
   */
  method GetTree(types: seq<string>, ds: seq<Details>) returns (r: Result<seq<Location>>)
    ensures r.Failure? <==> exists i :: 0 <= i < |ds| && ds[i].kind == Plain
    ensures r.Failure? ==> r.error == ClassCast
    ensures r.Success? ==> r.value == Locations(types, ds)
  {
    var tree: seq<Location> := [];
    var i := 0;
    while i < |ds|
      invariant 0 <= i <= |ds|
      invariant forall k :: 0 <= k < i ==> ds[k].kind != Plain
      invariant tree + Locations(types, ds[i..]) == Locations(types, ds)
    {
      if ds[i].kind == Plain {
        return Failure(ClassCast);
      }
      assert ds[i..][1..] == ds[i + 1..];
      if Selected(types, ds[i]) {
        tree := tree + [LocationOf(ds[i])];
      }
      i := i + 1;
    }
    assert ds[i..] == [];
    return Success(tree);
  }

  // ---------------------------------------------------------------------------
  // Bucket folders of a connection root, memoised by path.

  /** A bucket as the connection provider lists it. */
  datatype VfsRoot = VfsRoot(name: string, modified: int)

  /** What `getLocations` does: list the buckets (possibly `null`), or throw with a message. */
  datatype LocationsAnswer = Listed(roots: Option<seq<VfsRoot>>) | Threw(message: string, error: Failure)

  /** The connection provider of a bucket connection, as getRoot uses it. */
  datatype BucketProvider = BucketProvider(getLocations: Details -> LocationsAnswer, getProtocol: Details -> string)

  /** A bucket folder. */
  datatype VfsDirectory = VfsDirectory(
    name: string,
    modified: int,
    hasChildren: bool,
    canAddChildren: bool,
    parent: string,
    domain: Option<string>,
    connection: string,
    path: string,
    root: string)

  /** `getKey`: folders are memoised by the path of the root they were listed for. */
  function GetKey(file: VfsFile): (k: string)
    requires file.path.Some?
    ensures forall other: VfsFile :: other.path == file.path ==> k == other.path.value
  {
    file.path.value
  }

  /** The folder for one bucket of a connection root. */
  function FolderOf(file: VfsFile, x: Details, scheme: string, b: VfsRoot): (dir: VfsDirectory)
    requires file.path.Some?
    ensures dir.path == file.path.value + "/" + b.name && dir.parent == scheme + "://"
    ensures dir.name == b.name && dir.connection == x.name && dir.domain == x.domain
  {
    VfsDirectory(b.name, b.modified, true, true, scheme + "://", x.domain, x.name, file.path.value + "/" + b.name, ProviderName)
  }

  /** The folders for every bucket, in the provider's order. */
  function FoldersOf(file: VfsFile, x: Details, scheme: string, bs: seq<VfsRoot>): (dirs: seq<VfsDirectory>)
    requires file.path.Some?
    ensures |dirs| == |bs|
    ensures forall i :: 0 <= i < |bs| ==> dirs[i] == FolderOf(file, x, scheme, bs[i])
  {
    if bs == [] then [] else [FolderOf(file, x, scheme, bs[0])] + FoldersOf(file, x, scheme, bs[1..])
  }

  /** The memo of bucket folders, by key. */
  type RootCache = map<string, seq<VfsDirectory>>

  /** The details the connection manager holds for the file's connection, or `null`. */
  function RootDetails(connections: map<string, Details>, file: VfsFile): (d: Option<Details>)
    ensures d.Some? <==> file.connection.Some? && file.connection.value in connections
    ensures d.Some? ==> d.value == connections[file.connection.value]
  {
    if file.connection.Some? && file.connection.value in connections then Some(connections[file.connection.value]) else None
  }

  /**
   `getRoot`: the memoised folders when the key is known; otherwise `null` for a
   connection without buckets, a FileException for a failing `getLocations`, a
   FileNotFoundException for no buckets, and else one folder per bucket, which
   are memoised under the key. Returns the answer and the memo afterwards.
   */
  function GetRoot(cache: RootCache, connections: map<string, Details>, provider: BucketProvider, file: VfsFile)
    : (r: (Result<Option<seq<VfsDirectory>>>, RootCache))
    requires file.path.Some?
    ensures GetKey(file) in cache ==> r == (Success(Some(cache[GetKey(file)])), cache)
    ensures GetKey(file) !in cache && !HasBuckets(RootDetails(connections, file)) ==> r == (Success(None), cache)
    ensures GetKey(file) !in cache && HasBuckets(RootDetails(connections, file)) ==>
      var x := RootDetails(connections, file).value;
      match provider.getLocations(x)
      case Threw(message, e) => r == (Failure(FileError(LocationsError + message, e)), cache)
      case Listed(roots) =>
        if roots.None? || |roots.value| == 0 then r == (Failure(FileNotFound(GetKey(file), file.provider)), cache)
        else
          var files := FoldersOf(file, x, provider.getProtocol(x), roots.value);
          r == (Success(Some(files)), cache[GetKey(file) := files])
    ensures r.0.Success? && r.0.value.Some? ==> GetKey(file) in r.1 && r.1[GetKey(file)] == r.0.value.value
    ensures !(r.0.Success? && r.0.value.Some?) ==> r.1 == cache
    ensures r.1.Keys == cache.Keys || r.1.Keys == cache.Keys + {GetKey(file)}
    ensures forall k :: k in cache ==> k in r.1 && r.1[k] == cache[k]
    ensures GetKey(file) !in cache && r.0.Success? && r.0.value.Some? ==>
      var d := RootDetails(connections, file);
      HasBuckets(d) && provider.getLocations(d.value).Listed? && provider.getLocations(d.value).roots.Some?
      && r.0.value.value == FoldersOf(file, d.value, provider.getProtocol(d.value), provider.getLocations(d.value).roots.value)
      && |r.0.value.value| > 0
  {
    var key := GetKey(file);
    if key in cache then (Success(Some(cache[key])), cache)
    else
      var details := RootDetails(connections, file);
      if !HasBuckets(details) then (Success(None), cache)
      else
        var x := details.value;
        match provider.getLocations(x)
        case Threw(message, e) => (Failure(FileError(LocationsError + message, e)), cache)
        case Listed(roots) =>
          if roots.None? || |roots.value| == 0 then (Failure(FileNotFound(key, file.provider)), cache)
          else
            var files := FoldersOf(file, x, provider.getProtocol(x), roots.value);
            (Success(Some(files)), cache[key := files])
  }

  /**
   The memo: once getRoot has listed folders for a path, any later call for a
   file with that path (whatever its connection) answers the same folders and
   leaves the memo as it is.
   */
  lemma GetRootIsMemoised(cache: RootCache, connections: map<string, Details>, provider: BucketProvider,
                          file: VfsFile, again: VfsFile, connections': map<string, Details>, provider': BucketProvider)
    requires file.path.Some? && again.path == file.path
    requires GetRoot(cache, connections, provider, file).0.Success?
    requires GetRoot(cache, connections, provider, file).0.value.Some?
    ensures var (first, memo) := GetRoot(cache, connections, provider, file);
      GetRoot(memo, connections', provider', again) == (first, memo)
  {
  }

  /** `clearProviderCache`: the memo starts again empty. */
  function ClearProviderCache(cache: RootCache): (c: RootCache)
    ensures c == map[]
  {
    map[]
  }

  /**
   Clearing drops a memoised listing: before, getRoot answers the memo's folders
   whatever the provider now says; after, it asks the provider again and answers
   what the provider says now, its `null`, its failures and its new buckets included.
   */
  lemma ClearedCacheRecomputes(cache: RootCache, connections: map<string, Details>, provider: BucketProvider, file: VfsFile)
    requires file.path.Some? && GetKey(file) in cache
    ensures GetRoot(cache, connections, provider, file) == (Success(Some(cache[GetKey(file)])), cache)
    ensures var d := RootDetails(connections, file);
      var (answer, memo) := GetRoot(ClearProviderCache(cache), connections, provider, file);
      (!HasBuckets(d) ==> answer == Success(None) && memo == map[])
      && (HasBuckets(d) && provider.getLocations(d.value).Threw? ==>
            answer == Failure(FileError(LocationsError + provider.getLocations(d.value).message,
                                        provider.getLocations(d.value).error)) && memo == map[])
      && (HasBuckets(d) && provider.getLocations(d.value).Listed?
          && provider.getLocations(d.value).roots.Some? && |provider.getLocations(d.value).roots.value| > 0 ==>
            var files := FoldersOf(file, d.value, provider.getProtocol(d.value), provider.getLocations(d.value).roots.value);
            answer == Success(Some(files)) && memo == map[GetKey(file) := files])
  {
    assert GetKey(file) !in ClearProviderCache(cache);
  }

  // ---------------------------------------------------------------------------
  // sanitizeName and isSame.

  /**
   `sanitizeName`: a path already in the pvfs scheme comes back unchanged; any
   other path is handed to the connection provider registered under it (a
   foreign call, given here as a function).
   */
  function SanitizeName(newPath: string, providerSanitize: string -> Result<string>): (r: Result<string>)
    ensures StartsWith(newPath, Scheme + "://") ==> r == Success(newPath)
    ensures !StartsWith(newPath, Scheme + "://") ==> r == providerSanitize(newPath)
  {
    if StartsWith(newPath, Scheme + "://") then Success(newPath) else providerSanitize(newPath)
  }

  /** A pvfs path is a fixed point of sanitizeName, whatever the providers do. */
  lemma SanitizeNameFixesPvfs(newPath: string, providerSanitize: string -> Result<string>)
    requires StartsWith(newPath, Scheme + "://")
    ensures forall other: string -> Result<string> :: SanitizeName(newPath, other) == SanitizeName(newPath, providerSanitize)
    ensures SanitizeName(newPath, providerSanitize) == Success(newPath)
  {
  }

  /**
   sanitizeName is idempotent as soon as the providers' sanitizers are: a second
   call leaves a sanitized path as it is, whether it came back in the pvfs scheme
   or from a provider.
   */
  lemma SanitizeNameIsIdempotent(newPath: string, providerSanitize: string -> Result<string>)
    requires forall p :: providerSanitize(p).Success? && !StartsWith(providerSanitize(p).value, Scheme + "://")
               ==> providerSanitize(providerSanitize(p).value) == providerSanitize(p)
    ensures SanitizeName(newPath, providerSanitize).Success? ==>
      var once := SanitizeName(newPath, providerSanitize).value;
      SanitizeName(once, providerSanitize) == Success(once)
  {
  }

  /** A file of any provider: only VFS files carry a connection. */
  datatype AnyFile = VfsFileRef(file: VfsFile) | OtherFile

  /**
   `isSame`: two VFS files are the same place iff their connections are equal;
   a null connection on the first file is dereferenced, on the second it is simply unequal.
   */
  function IsSame(a: AnyFile, b: AnyFile): (r: Result<bool>)
    ensures !(a.VfsFileRef? && b.VfsFileRef?) ==> r == Success(false)
    ensures a.VfsFileRef? && b.VfsFileRef? && a.file.connection.None? ==> r == Failure(NullPointer)
    ensures r == Success(true) <==>
      a.VfsFileRef? && b.VfsFileRef? && a.file.connection.Some? && a.file.connection == b.file.connection
  {
    if a.VfsFileRef? && b.VfsFileRef? then
      match a.file.connection
      case None => Failure(NullPointer)
      case Some(c) => Success(b.file.connection == Some(c))
    else Success(false)
  }

  /** Between VFS files with connections, isSame is an equivalence: reflexive, symmetric and transitive. */
  lemma IsSameIsEquivalence(a: VfsFile, b: VfsFile, c: VfsFile)
    requires a.connection.Some? && b.connection.Some? && c.connection.Some?
    ensures IsSame(VfsFileRef(a), VfsFileRef(a)) == Success(true)
    ensures IsSame(VfsFileRef(a), VfsFileRef(b)) == IsSame(VfsFileRef(b), VfsFileRef(a))
    ensures IsSame(VfsFileRef(a), VfsFileRef(b)) == Success(true) && IsSame(VfsFileRef(b), VfsFileRef(c)) == Success(true)
      ==> IsSame(VfsFileRef(a), VfsFileRef(c)) == Success(true)
  {
  }
}

=== FILE: vfs_file_provider_examples.dfy ===
/**
 The cases of the provider's unit test for isConnectionRoot and hasBuckets.
 */
module VfsFileProviderExamples {
  import opened Core
  import opened Text
  import opened UriTransformers
  import opened VfsFileProvider

  /** A test file with only a path. */
  function TestFile(path: Option<string>): VfsFile {
    VfsFile(path, None, "vfs")
  }

  /** Test: a null file, a null path and the empty path are not connection roots. */
  lemma NotRootWithoutPath()
    ensures !IsConnectionRoot(None)
    ensures !IsConnectionRoot(Some(TestFile(None)))
    ensures !IsConnectionRoot(Some(TestFile(Some(""))))
  {
  }

  /** Test: nothing short of `scheme:` is a connection root. */
  lemma NotRootBeforeTheSeparator()
    ensures !IsConnectionRoot(Some(TestFile(Some(" "))))
    ensures !IsConnectionRoot(Some(TestFile(Some("pvfs"))))
    ensures !IsConnectionRoot(Some(TestFile(Some("pvfs:"))))
  {
  }

  /** Test: a scheme with a partial or complete separator and no name is not a connection root. */
  lemma NotRootBeforeTheName()
    ensures !IsConnectionRoot(Some(TestFile(Some("pvfs:/"))))
    ensures !IsConnectionRoot(Some(TestFile(Some("pvfs://"))))
    ensures !IsConnectionRoot(Some(TestFile(Some("pvfs:///"))))
  {
  }

  lemma TestNamesAreNames()
    ensures IsConnectionName("someConnection") && IsConnectionName("some-Connection")
    ensures IsConnectionName("123someConnection123")
    ensures IsConnectionName("some_Connection") && IsConnectionName("someConnection123")
  {
  }

  /**
   Test: paths past the connection are not connection roots. The test paths are
   written as the concatenation of scheme, `://`, name, `/` and the rest.
   */
  lemma NotRootPastTheName()
    ensures !IsConnectionRoot(Some(TestFile(Some("pvfs" + "://" + "someConnection" + "/" + "someFolderA"))))
    ensures !IsConnectionRoot(Some(TestFile(Some("pvfs" + "://" + "someConnection" + "/" + "someFolderA/directory2"))))
    ensures !IsConnectionRoot(Some(TestFile(Some("pvfs" + "://" + "someConnection" + "/"
                                                  + "someFolderA/directory2/randomFileC.txt"))))
  {
    TestNamesAreNames();
    PastTheNameIsNotRoot("pvfs", "someConnection", "someFolderA");
    PastTheNameIsNotRoot("pvfs", "someConnection", "someFolderA/directory2");
    PastTheNameIsNotRoot("pvfs", "someConnection", "someFolderA/directory2/randomFileC.txt");
  }

  /**
   Test: names with `-`, `_` and digits are connection roots, with or without
   the trailing `/`. The test paths are written as the concatenation of scheme,
   `://`, name and the optional `/`.
   */
  lemma RootsOfTheTest()
    ensures IsConnectionRoot(Some(TestFile(Some("pvfs" + "://" + "some-Connection"))))
    ensures IsConnectionRoot(Some(TestFile(Some("pvfs" + "://" + "some-Connection" + "/"))))
    ensures IsConnectionRoot(Some(TestFile(Some("pvfs" + "://" + "123someConnection123" + "/"))))
  {
    TestNamesAreNames();
    RootShapeMatches("pvfs", "some-Connection", "");
    assert "pvfs" + "://" + "some-Connection" + "" == "pvfs" + "://" + "some-Connection";
    RootShapeMatches("pvfs", "some-Connection", "/");
    RootShapeMatches("pvfs", "123someConnection123", "/");
  }

  /** Test: the remaining connection roots of the test, plain and with `_`. */
  lemma PlainRootsOfTheTest()
    ensures IsConnectionRoot(Some(TestFile(Some("pvfs" + "://" + "someConnection"))))
    ensures IsConnectionRoot(Some(TestFile(Some("pvfs" + "://" + "someConnection" + "/"))))
    ensures IsConnectionRoot(Some(TestFile(Some("pvfs" + "://" + "some_Connection"))))
    ensures IsConnectionRoot(Some(TestFile(Some("pvfs" + "://" + "some_Connection" + "/"))))
  {
    TestNamesAreNames();
    RootShapeMatches("pvfs", "someConnection", "");
    assert "pvfs" + "://" + "someConnection" + "" == "pvfs" + "://" + "someConnection";
    RootShapeMatches("pvfs", "someConnection", "/");
    RootShapeMatches("pvfs", "some_Connection", "");
    assert "pvfs" + "://" + "some_Connection" + "" == "pvfs" + "://" + "some_Connection";
    RootShapeMatches("pvfs", "some_Connection", "/");
  }

  /** Test: the connection roots of the test with digits in the name. */
  lemma NumberedRootsOfTheTest()
    ensures IsConnectionRoot(Some(TestFile(Some("pvfs" + "://" + "someConnection123"))))
    ensures IsConnectionRoot(Some(TestFile(Some("pvfs" + "://" + "someConnection123" + "/"))))
    ensures IsConnectionRoot(Some(TestFile(Some("pvfs" + "://" + "123someConnection123"))))
  {
    TestNamesAreNames();
    RootShapeMatches("pvfs", "someConnection123", "");
    assert "pvfs" + "://" + "someConnection123" + "" == "pvfs" + "://" + "someConnection123";
    RootShapeMatches("pvfs", "someConnection123", "/");
    RootShapeMatches("pvfs", "123someConnection123", "");
    assert "pvfs" + "://" + "123someConnection123" + "" == "pvfs" + "://" + "123someConnection123";
  }

  /** Test: non-VFS details never have buckets; VFS details have them as they say. */
  lemma HasBucketsOfTheTest(x: Details)
    ensures !HasBuckets(None)
    ensures !HasBuckets(Some(x.(kind := Plain)))
    ensures !HasBuckets(Some(x.(kind := Vfs, hasBuckets := false)))
    ensures HasBuckets(Some(x.(kind := Vfs, hasBuckets := true)))
  {
  }
}
